=== FILE: README.md ===
# Quant Terraform provider: rule translation and guard model

This project models the pure core of the Quant CDN Terraform provider. Each
resource operation (Create, Read, Update, Delete) is modelled as a function
from a declared resource to three things:

- the diagnostics it reports;
- the API call it would make, if any: organization, project, id and request body;
- the state it writes, if any.

Every resource attribute is a `Tf<T>` that is null, unknown or known. An API
reply is an input record: the status, the client's error, the decoded body and
the returned uuids. A Go runtime panic is a diagnostic of severity `Panic`.
Examples are indexing the first rule of an empty reply, or dereferencing a nil
response after a failed call.

Modules:

- `Values`, `Diagnostics`: the tri-state value, its zero-value accessors and pointers, int32 narrowing, diagnostics.
- `RuleFilters`, `RuleSchema`: the filter mode vocabulary (`any`, `<dim>_is`, `<dim>_is_not`), its validators and the shared rule schema.
- `RuleImport`: the `project/uuid` import-token parser, including the UUID text form of section 3 of RFC 4122.
- `Flatten`, `ErrorMessages`: list flattening with int32 narrowing, and the message dispatch over a decoded API error body.
- `Selection`: what a request's mode and lists select, and the four ways the rule kinds translate an include flag and a list into them.
- `Api`, `LegacyRule`: the response ladders and the lifecycle steps the older rule kinds share.
- `RuleProxy`, `RuleCustomResponse`, `RuleRedirect`, `RuleHeaders`, `RuleAuth`, `RuleHeader`: one module per rule kind.
- `StringOrder`, `HeaderResource`: the project header map and its sorted-key id pre-image.
- `ProjectResource`, `CrawlerResource`: project and crawler request builders and guards.

Where the source has an evident defect, the model keeps a member that does
what the code does. Next to it is a corrected member with the intended
property proved, and the lifecycle functions use the corrected member (see
Findings).

## Model

| member | source | states |
|---|---|---|
| `Values.ValueStringPointer` | internal/provider/rule_header_resource.go:146-146 | the pointer is absent exactly for a null value; a known value is passed through and an unknown one points to "" |
| `Values.ValueBoolPointer` | internal/provider/rule_header_resource.go:147-147 | the pointer is absent exactly for a null flag; a known flag is passed through and an unknown one points to false |
| `Values.ToInt32` | internal/helpers/flatten.go:8-8 | the Go `int32(...)` conversion: the result is in int32 range, congruent to the input modulo 2^32, and equal to the input when it already fits |
| `RuleFilters.GetFilterIs` | internal/utils/rules.go:13-17 | the "is" mode of a dimension is its name followed by three more characters |
| `RuleFilters.GetFilterIsNot` | internal/utils/rules.go:19-23 | the "is not" mode of a dimension is its name followed by seven more characters |
| `RuleFilters.GetRuleAny` | internal/utils/rules.go:7-11 | the no-restriction mode "any" is one of the valid modes |
| `RuleFilters.ModeStringsDistinct` | internal/utils/rules.go:7-23 | no "is" mode equals any "is not" mode, and neither equals "any" |
| `RuleFilters.IsValidRuleFilter` | internal/utils/rules.go:25-35 | a string is valid exactly when it is one of the seven listed modes |
| `RuleFilters.IsValidRuleFilterExactly` | internal/utils/rules.go:25-35 | the validator accepts exactly the seven listed mode strings |
| `RuleFilters.IsValidRuleFilterByDimension` | internal/utils/rules.go:25-35 | a string is accepted iff it is the mode of some dimension |
| `RuleFilters.IsValidRuleFilterIgnoresDimension` | internal/utils/rules.go:25-35 | "country_is" and "ip_is" pass the validator but are not method modes |
| `RuleSchema.RuleBaseAttributes` | internal/provider/rule_resource.go:25-105 | only name is required; uuid and rule_id are computed only; domain defaults to ["any"]; disabled defaults to false; exactly the three mode attributes carry a one-of validator listing that dimension's modes |
| `RuleSchema.ValidatorsMatchDimensions` | internal/provider/rule_resource.go:61-94 | each dimension's schema validator accepts exactly "any", its "is" mode and its "is not" mode |
| `RuleSchema.ValidatorsStrictlyInsideValidModes` | internal/provider/rule_resource.go:61-94 | each dimension's accepted set lies inside the general validator's, and some valid mode is refused |
| `RuleSchema.RuleBaseConfigValidator` | internal/provider/rule_resource.go:17-19 | no config validators are declared |
| `RuleImport.Split` | internal/utils/rule_import.go:12-12 | splitting yields at least one segment |
| `RuleImport.SplitLength` | internal/utils/rule_import.go:12-13 | the number of segments is the number of slashes plus one |
| `RuleImport.SplitJoin` | internal/utils/rule_import.go:12-12 | joining the segments with "/" gives the token back |
| `RuleImport.SlashFreeSplit` | internal/utils/rule_import.go:12-12 | a token without a slash is its own single segment |
| `RuleImport.SplitTwo` | internal/utils/rule_import.go:12-12 | two slash-free parts joined by one slash split back into those parts |
| `RuleImport.SplitNoSlash` | internal/utils/rule_import.go:12-12 | no segment contains a slash |
| `RuleImport.CountAppend` | internal/utils/rule_import.go:12-13 | slash counts add over concatenation |
| `RuleImport.UuidSlashFree` | internal/utils/rule_import.go:17-17 | a string in UUID form holds no slash |
| `RuleImport.IsUuid` | internal/utils/rule_import.go:17-17 | a string matching the uuid pattern is 36 characters long and holds no slash |
| `RuleImport.GetRuleImportId` | internal/utils/rule_import.go:11-23 | a token without exactly one slash gets the pattern error; a token with one slash whose second segment is not a uuid gets the uuid error; success iff one slash and a well-formed uuid (version 1-5, variant 8/9/a/b, either case); both failures return null parts; success returns both segments unchanged |
| `RuleImport.ImportRoundTrip` | internal/utils/rule_import.go:11-23 | a slash-free project and a valid uuid joined by "/" parse back to exactly that pair |
| `RuleImport.EmptyProjectAccepted` | internal/utils/rule_import.go:11-23 | the project segment is never checked: "/<uuid>" is accepted with an empty project |
| `RuleImport.ExtraSlashRefused` | internal/utils/rule_import.go:12-15 | a token with a second slash is refused with the pattern error whatever its parts |
| `RuleImport.UpperCaseAccepted` | internal/utils/rule_import.go:17-22 | a valid uuid with its hex letters in upper case is still accepted, and comes back as given, with no case folding |
| `RuleImport.ImportExampleBadVariant` | internal/utils/rule_import.go:17-20 | a variant nibble outside 8/9/a/b gives "Invalid UUID format" |
| `RuleImport.ImportExampleNoSlash` | internal/utils/rule_import.go:12-15 | a token with no slash gives the pattern error |
| `Flatten.FlattenToInt32` | internal/helpers/flatten.go:5-11 | the same length and order, and each element narrowed to int32 with wrap-around |
| `Flatten.FlattenToInt64` | internal/helpers/flatten.go:13-19 | the same length and order, and each element its int64 value |
| `Flatten.FlattenToStrings` | internal/helpers/flatten.go:21-27 | the same length and order, and each element its string value |
| `Flatten.FlattenKnownStrings` | internal/helpers/flatten.go:21-27 | flattening a list of known strings gives those strings back |
| `Flatten.FlattenInt32Identity` | internal/helpers/flatten.go:5-19 | when every element fits in int32, the int32 and int64 flattenings agree |
| `Flatten.FlattenStringsAppend` | internal/helpers/flatten.go:21-27 | flattening distributes over concatenation |
| `ErrorMessages.ErrorFromApiBody` | internal/helpers/errorMessages.go:17-40 | an unreadable or undecodable body, or a missing message, gives the unidentified error; a message with a string gives that string; any other shape gives the unidentified error |
| `ErrorMessages.StringMessageVerbatim` | internal/helpers/errorMessages.go:31-32 | a string message is returned verbatim |
| `ErrorMessages.ObjectMessageMsg` | internal/helpers/errorMessages.go:33-36 | an object message with a string "msg" returns that string |
| `ErrorMessages.OtherShapesUnidentified` | internal/helpers/errorMessages.go:30-39 | numbers, arrays, null and objects without a string "msg" give the unidentified error |
| `Selection.ModeAndList` | internal/provider/rule_proxy_resource.go:306-334 | proxy style: a known flag sets its dimension's mode and exactly the matching list; a null or unknown flag sets nothing; "any" is never written |
| `Selection.ListOnly` | internal/provider/rule_custom_response_resource.go:333-355 | update style: no mode; a known flag sets exactly the matching list |
| `Selection.AnyOrList` | internal/provider/rule_custom_response_resource.go:175-213 | create style: a null flag sets mode "any" and no list; otherwise the lists alone |
| `Selection.AnyOnly` | internal/provider/rule_redirect_resource.go:186-197 | redirect create style: "any" exactly for a null flag, never a list |
| `Selection.ModeAndListReadsBack` | internal/provider/rule_proxy_resource.go:306-334 | the proxy request selects what the flag and list mean, except that a null flag leaves the dimension unspecified |
| `Selection.AnyOrListReadsBack` | internal/provider/rule_custom_response_resource.go:175-213 | the create-style request selects exactly what the flag and list mean |
| `Selection.ListOnlyReadsBack` | internal/provider/rule_custom_response_resource.go:333-355 | the update-style request selects what the flag and list mean, except a null flag |
| `Selection.AnyOnlyReadsBack` | internal/provider/rule_redirect_resource.go:186-197 | the redirect create request selects everything for a null flag and leaves a known flag unspecified |
| `Selection.TranslatorsNeverConflict` | internal/provider/rule_proxy_resource.go:306-334 | none of the four translations ever sets both lists or a mode that contradicts its list |
| `Api.OrgFor` | internal/provider/rule_header_resource.go:164-167 | a known organization overrides the client's, a null one falls back to it, and an unknown one gives "" |
| `Api.CreateLadder` | internal/provider/rule_custom_response_resource.go:224-249 | 403, then any other non-200, then a call error each stop with exactly their own error message; an empty rule list panics; otherwise the first rule's uuid is taken |
| `Api.RefreshLadder` | internal/provider/rule_custom_response_resource.go:277-301 | a call error is reported first; a non-200 or an empty rule list ends in an error ("Unkonwn UUID" for the empty list); a uuid comes back exactly for a 200 reply with rules, and then it is the first rule's |
| `LegacyRule.WithDefaultUrl` | internal/provider/rule_custom_response_resource.go:169-171 | a null url becomes "*" and nothing else changes |
| `LegacyRule.CriteriaCheck` | internal/provider/rule_proxy_resource.go:293-298 | "Rule criteria is missing" is reported exactly when all three include flags are null |
| `LegacyRule.Refresh` | internal/provider/rule_custom_response_resource.go:270-304 | a null uuid gives a warning, no call, and state rewritten unchanged; otherwise state is written exactly when the refresh ladder yields a uuid, and then it carries that uuid; the call error and the empty-list error carry the caller's messages |
| `LegacyRule.CreateWithLadder` | internal/provider/rule_custom_response_resource.go:224-251 | the call is always made; state is written exactly for a 200 reply without error and with rules, carrying the first uuid |
| `LegacyRule.DeleteIfProject` | internal/provider/rule_custom_response_resource.go:411-430 | a null project gives an error and no call; otherwise the call's error is reported |
| `LegacyRule.DeleteIfIdentified` | internal/provider/rule_redirect_resource.go:410-436 | a null project or a null uuid gives one warning, not an error, and no call |
| `RuleProxy.BuildWaf` | internal/provider/rule_proxy_resource.go:348-362 | the mode and Slack hook are copied; the referer and user-agent block lists are flattened in order; the allow rules are flattened with int32 narrowing; the paranoia level and Slack rpm become Go's wrapped `int32(...)` value, unchanged when they fit |
| `RuleProxy.BuildRequest` | internal/provider/rule_proxy_resource.go:300-362 | name, domain, url and the disabled flag copied; filters in proxy style; to, host, auth user and password, only-404 and WAF-enabled copied; strip headers flattened in order; the cache lifetime becomes Go's wrapped `int32(...)` value; the WAF sub-request built from the plan |
| `RuleProxy.RequestIgnoresUnsentFields` | internal/provider/rule_proxy_resource.go:337-355 | disable_ssl_verify, allow_ip, block_ip and httpbl never affect the request |
| `RuleProxy.RequestSelectsAsPlanned` | internal/provider/rule_proxy_resource.go:306-334 | each dimension of the proxy request selects what its include flag and list mean, a null flag aside |
| `RuleProxy.Create` | internal/provider/rule_proxy_resource.go:285-384 | the criteria diagnostic comes first, then the call error, and neither stops the uuid lookup; state is written exactly when the reply holds rules, with the first uuid, whatever was reported; an empty rule list panics |
| `RuleProxy.Read` | internal/provider/rule_proxy_resource.go:387-410 | state is never written; an empty reply panics before the error is checked |
| `RuleProxy.Update` | internal/provider/rule_proxy_resource.go:413-502 | the plan is stored unchanged, and only the call's error is reported |
| `RuleProxy.UpdateSendsCreateRequest` | internal/provider/rule_proxy_resource.go:420-488 | for one plan, Update sends Create's request to the same project |
| `RuleProxy.Delete` | internal/provider/rule_proxy_resource.go:505-534 | a null project gives "Error Deleting Quant project" and no call; a call error gives the project resource's "Could not delete project" text |
| `RuleCustomResponse.Behaviour` | internal/provider/rule_custom_response_resource.go:216-218 | the body is copied and the status code becomes Go's wrapped `int32(...)` value, unchanged when it fits |
| `RuleCustomResponse.CreateRequest` | internal/provider/rule_custom_response_resource.go:175-218 | name, domain, url and the disabled value copied; each dimension selects exactly what the plan means; the behaviour is the body and the wrapped status code |
| `RuleCustomResponse.UpdateRequest` | internal/provider/rule_custom_response_resource.go:333-360 | name, domain, url and the disabled value copied; no mode is ever set, and a null flag leaves the dimension unspecified; the behaviour is the body and the wrapped status code |
| `RuleCustomResponse.UpdateDropsAnyDefault` | internal/provider/rule_custom_response_resource.go:175-355 | Create's and Update's selections for one plan differ exactly where an include flag is null |
| `RuleCustomResponse.Create` | internal/provider/rule_custom_response_resource.go:161-256 | the url default is applied; a 403 gives only the authorisation error; state is written exactly on a clean 200 with rules |
| `RuleCustomResponse.Read` | internal/provider/rule_custom_response_resource.go:259-309 | a null uuid makes no call and is quiet; otherwise state is written exactly for a 200 with rules, carrying the first uuid; a call error and an empty rule list give their own messages, the latter with a space after "for" |
| `RuleCustomResponse.Update` | internal/provider/rule_custom_response_resource.go:312-400 | a null uuid makes no call; otherwise the update request is sent, state follows the refresh ladder, and a call error gives "Error updating rule" |
| `RuleCustomResponse.Delete` | internal/provider/rule_custom_response_resource.go:403-432 | a null project gives "Error Deleting Quant project" and no call; a call error gives "Error Deleting rule " with the error |
| `RuleRedirect.GuardAsWrittenRefusesAll` | internal/provider/rule_redirect_resource.go:198-198 | the guard as written holds for every integer |
| `RuleRedirect.GuardPassesExactlyRedirectCodes` | internal/provider/rule_redirect_resource.go:158-204 | the intended guard passes exactly 301 and 302, including the schema default |
| `RuleRedirect.StatusGuardAsWritten` | internal/provider/rule_redirect_resource.go:198-198 | as written, the guard refuses every code |
| `RuleRedirect.StatusGuard` | internal/provider/rule_redirect_resource.go:198-198 | the intended guard passes exactly 301 and 302, and a passed code fits in int32 |
| `RuleRedirect.FormatInt` | internal/provider/rule_redirect_resource.go:199-202 | the `%d` rendering of the given code: a minus sign exactly for a negative code, then decimal digits with no leading zero |
| `RuleRedirect.Digits` | internal/provider/rule_redirect_resource.go:201-201 | the decimal digits of a natural number, nonempty, with no leading zero, a single digit exactly below 10 |
| `RuleRedirect.FormatIntExamples` | internal/provider/rule_redirect_resource.go:201-201 | 301, 0 and -7 render as "301", "0" and "-7" |
| `RuleRedirect.CreateRequest` | internal/provider/rule_redirect_resource.go:186-210 | name, domain and url copied; no disabled flag and no lists; "any" for each null flag; the target copied; the code becomes Go's wrapped `int32(...)` value |
| `RuleRedirect.UpdateRequest` | internal/provider/rule_redirect_resource.go:322-360 | name, domain, url and the disabled value copied; the lists follow known flags; the target copied; the code becomes Go's wrapped `int32(...)` value |
| `RuleRedirect.CreateAfterGuard` | internal/provider/rule_redirect_resource.go:213-241 | 403 and other non-200 stop; state is written exactly for a 200 with rules, whether or not the call reported an error |
| `RuleRedirect.CreateAsWritten` | internal/provider/rule_redirect_resource.go:169-244 | the always-true guard stops Create with "Invalid redirect status code" |
| `RuleRedirect.CreateAsWrittenNeverCalls` | internal/provider/rule_redirect_resource.go:198-204 | as written, Create never calls the API and writes no state, whatever the plan |
| `RuleRedirect.Create` | internal/provider/rule_redirect_resource.go:169-244 | corrected guard: the call is made exactly for codes 301 and 302, and is then exactly the create path for the defaulted plan, with state exactly on a 200 with rules; otherwise only the code error is reported |
| `RuleRedirect.DefaultCodeCreates` | internal/provider/rule_redirect_resource.go:158-204 | with the default code, the corrected Create calls the API and the as-written one does not |
| `RuleRedirect.UpdateAsWritten` | internal/provider/rule_redirect_resource.go:303-399 | a null uuid gives a warning and rewrites state; otherwise the always-true guard stops Update |
| `RuleRedirect.UpdateAsWrittenNeverCalls` | internal/provider/rule_redirect_resource.go:347-353 | as written, Update never sends its request |
| `RuleRedirect.Update` | internal/provider/rule_redirect_resource.go:303-399 | corrected guard: past the null-uuid warning, the request is sent exactly for 301 and 302, any other code gives exactly the code error and no state; past the call, the first uuid is stored exactly on a 200 with rules, a call error gives "Error updating rule", and an empty list gives "Unkonwn UUID" |
| `RuleRedirect.Read` | internal/provider/rule_redirect_resource.go:247-300 | a null uuid is quiet and makes no call; otherwise state is written exactly for a 200 with rules; a call error and an empty rule list give their own messages |
| `RuleRedirect.Delete` | internal/provider/rule_redirect_resource.go:402-439 | a null project or uuid gives one warning, no error, and no call; a call error gives "Error Deleting rule " with the error |
| `RuleHeaders.HeaderEntries` | internal/provider/rule_headers_resource.go:217-222 | the request map has exactly the plan's keys, with each value as given; a null or unknown map is empty |
| `RuleHeaders.CreateRequest` | internal/provider/rule_headers_resource.go:174-222 | name, domain, url and the disabled value copied; each dimension selects exactly what the plan means, and the header map is the plan's |
| `RuleHeaders.UpdateRequest` | internal/provider/rule_headers_resource.go:341-372 | name, domain, url and the disabled value copied; no mode is set, a null flag leaves the dimension unspecified, and the header map is the plan's |
| `RuleHeaders.CreateAndUpdateAgreeOnHeaders` | internal/provider/rule_headers_resource.go:174-372 | Create and Update send the same headers, and their selections differ exactly on null flags |
| `RuleHeaders.Create` | internal/provider/rule_headers_resource.go:160-261 | the url default is applied; state is written exactly on a clean 200 with rules; any non-200 is an error |
| `RuleHeaders.Read` | internal/provider/rule_headers_resource.go:264-317 | a null uuid is quiet and makes no call; otherwise state follows the refresh ladder; an empty rule list reports the uuid with no space after "for" |
| `RuleHeaders.Update` | internal/provider/rule_headers_resource.go:320-413 | a null uuid is quiet and makes no call; otherwise the update request is sent, state follows the refresh ladder, and a call error gives "Error updating rule" |
| `RuleHeaders.Delete` | internal/provider/rule_headers_resource.go:416-453 | a null project or uuid gives one warning and no call; a call error gives "Error Deleting rule " with the error |
| `RuleAuth.BuildRequestAsWritten` | internal/provider/rule_auth_resource.go:225-226 | as written, the username slot holds the plan's username |
| `RuleAuth.AsWrittenSendsUserAsPassword` | internal/provider/rule_auth_resource.go:225-226 | as written, the password sent is always the username |
| `RuleAuth.BuildRequest` | internal/provider/rule_auth_resource.go:179-226 | corrected: the request built holds the plan's own credentials, its name, domain, url and disabled value, and each dimension selects what the plan means (Create and Update never attach it; see Left out) |
| `RuleAuth.CorrectionOnlyTouchesPassword` | internal/provider/rule_auth_resource.go:225-226 | the two builders differ only in the password, and only when it differs from the username |
| `RuleAuth.Create` | internal/provider/rule_auth_resource.go:162-248 | the criteria and call errors do not stop the uuid lookup; state is written exactly when rules come back |
| `RuleAuth.Read` | internal/provider/rule_auth_resource.go:251-275 | no state is written; an empty reply panics before the error is checked |
| `RuleAuth.Update` | internal/provider/rule_auth_resource.go:278-356 | no state is written; errors are reported exactly for missing criteria or a call error |
| `RuleAuth.UpdateSendsCreateRequest` | internal/provider/rule_auth_resource.go:179-342 | Update sends Create's request for the same plan |
| `RuleAuth.Delete` | internal/provider/rule_auth_resource.go:359-388 | a null project gives "Error deleting rule" and no call; a call error gives the same summary with the error |
| `RuleHeader.OwnModesAccepted` | internal/provider/rule_header_resource.go:320-395 | each dimension's check accepts its own "is" and "is not" modes |
| `RuleHeader.ModeAccepted` | internal/provider/rule_header_resource.go:320-395 | the country check accepts exactly the country modes; the method and ip checks accept every dimension's modes |
| `RuleHeader.SetFilterAsWritten` | internal/provider/rule_header_resource.go:320-395 | a null mode becomes "any"; a refused mode is an attribute error and leaves the dimension unset; an accepted mode is copied verbatim with no diagnostic; no list is ever copied |
| `RuleHeader.AsWrittenIsModeSelectsNothing` | internal/provider/rule_header_resource.go:334-341 | as written, an "is" mode reaches the API with no list |
| `RuleHeader.SetFilter` | internal/provider/rule_header_resource.go:320-395 | corrected: an "is" or "is not" mode carries the matching list; modes and diagnostics are as written |
| `RuleHeader.SetFilterReadsBack` | internal/provider/rule_header_resource.go:320-395 | a null or "any" mode selects everything, and the own modes select their list |
| `RuleHeader.ForeignModeAccepted` | internal/provider/rule_header_resource.go:350-357 | method = "ip_is" passes with no diagnostic and is copied verbatim, giving a conflicting request |
| `RuleHeader.CountryRefusesForeignMode` | internal/provider/rule_header_resource.go:323-329 | the country check refuses "method_is" with the country attribute error |
| `RuleHeader.RequestUrlAsWritten` | internal/provider/rule_header_resource.go:136-138 | as written, no url is sent |
| `RuleHeader.UrlAsWrittenDropsUrls` | internal/provider/rule_header_resource.go:136-138 | as written, the url sent never equals the rule's url list |
| `RuleHeader.RequestUrl` | internal/provider/rule_header_resource.go:136-138 | corrected: the rule's url list is sent |
| `RuleHeader.RequestHeadersAsWritten` | internal/provider/rule_header_resource.go:149-162 | as written, the converted header map is never attached, so no headers are sent |
| `RuleHeader.RequestHeaders` | internal/provider/rule_header_resource.go:149-162 | corrected: the request carries the converted header map, key for key |
| `RuleHeader.HeadersAsWrittenDropsHeaders` | internal/provider/rule_header_resource.go:149-162 | whenever Create calls the API, the corrected request carries the converted map and differs from the header-less one as written |
| `RuleHeader.BuildRequest` | internal/provider/rule_header_resource.go:130-162 | filters per dimension; a url only when asked for; a null domain becomes "any", any other is copied; cookie and disabled are absent exactly when null and otherwise carry the rule's value; the converted header map is attached |
| `RuleHeader.InvalidModeDoesNotStop` | internal/provider/rule_header_resource.go:132-134 | an invalid mode never stops Create; that dimension goes out unset |
| `RuleHeader.Create` | internal/provider/rule_header_resource.go:55-180 | a missing project stops with an attribute error; the call is made exactly when the project is present and neither conversion fails; a successful call stores the rule with the returned uuid, a failed one stores it unchanged with "Unable to create header rule"; state is always written |
| `RuleHeader.GuardsAsWritten` | internal/provider/rule_header_resource.go:183-201 | as written, the guards fail exactly for a null uuid or a missing project |
| `RuleHeader.GuardsAsWrittenPassUnknownUuid` | internal/provider/rule_header_resource.go:183-189 | as written, an unknown uuid passes, so the call goes out with an empty id |
| `RuleHeader.Guards` | internal/provider/rule_header_resource.go:183-201 | corrected: the guards fail exactly for a null or unknown uuid or project, and both errors collect before the return |
| `RuleHeader.GuardsDifferOnlyOnUnknownUuid` | internal/provider/rule_header_resource.go:183-201 | the two guards disagree exactly on an unknown uuid with a present project |
| `RuleHeader.Read` | internal/provider/rule_header_resource.go:72-220 | the call is made exactly when the guards pass, under the overriding organization; success refreshes the uuid; state is always written |
| `RuleHeader.Update` | internal/provider/rule_header_resource.go:89-282 | the call is made exactly when the guards pass and the object conversion succeeds; no url is sent; the plan is stored unchanged |
| `RuleHeader.Delete` | internal/provider/rule_header_resource.go:106-317 | the call is made exactly when the guards pass; no state is written |
| `RuleHeader.OrganizationOverride` | internal/provider/rule_header_resource.go:203-206 | a known organization on the rule is used by Read and Delete |
| `StringOrder.LessIrreflexive` | internal/provider/header_resource.go:162-162 | no string sorts before itself |
| `StringOrder.LessTransitive` | internal/provider/header_resource.go:162-162 | the order is transitive |
| `StringOrder.LessTotal` | internal/provider/header_resource.go:162-162 | any two distinct strings are ordered one way or the other |
| `StringOrder.LessAsymmetric` | internal/provider/header_resource.go:162-162 | no two strings sort before each other |
| `StringOrder.SortedIsDistinct` | internal/provider/header_resource.go:162-162 | a strictly ascending sequence holds no repeats |
| `StringOrder.Insert` | internal/provider/header_resource.go:162-162 | insertion keeps the sequence strictly ascending and adds exactly the new string |
| `StringOrder.Sort` | internal/provider/header_resource.go:162-162 | the result is strictly ascending, with the same strings and length |
| `StringOrder.SortedUnique` | internal/provider/header_resource.go:162-162 | a strictly ascending sequence is determined by the strings it holds |
| `StringOrder.SortIgnoresOrder` | internal/provider/header_resource.go:158-162 | any two listings of the same keys sort identically |
| `HeaderResource.Enumerate` | internal/provider/header_resource.go:158-161 | some listing of a key set holds each key exactly once |
| `HeaderResource.SortedKeys` | internal/provider/header_resource.go:158-162 | the keys in ascending order |
| `HeaderResource.PreImageIsAscendingConcat` | internal/provider/header_resource.go:157-169 | the hash pre-image is the concatenation of key then value over keys in ascending order |
| `HeaderResource.PreImageCollision` | internal/provider/header_resource.go:165-169 | {"ab":"c"} and {"a":"bc"} share the pre-image "abc" |
| `HeaderResource.GenerateId` | internal/provider/header_resource.go:157-174 | the id is the hash of the ascending pre-image, whatever order the keys are collected in |
| `HeaderResource.CollectKeys` | internal/provider/header_resource.go:158-161 | every key is collected exactly once |
| `HeaderResource.Concatenate` | internal/provider/header_resource.go:164-169 | each key is followed by its value, in the given order |
| `HeaderResource.RenderAsWritten` | internal/provider/header_resource.go:180-182 | as written, a known value is sent quoted, so it never equals the plain value |
| `HeaderResource.RequestHeadersAsWritten` | internal/provider/header_resource.go:180-182 | as written, the request has the plan's keys with each value in quoted text form |
| `HeaderResource.RequestHeaders` | internal/provider/header_resource.go:180-182 | corrected: the request has exactly the plan's keys, each with its plain string value |
| `HeaderResource.FromApi` | internal/provider/header_resource.go:203-206 | the API map becomes a known map with the same keys and each value known |
| `HeaderResource.CreateUpdate` | internal/provider/header_resource.go:177-193 | the request keys are the plan's keys; the id is set exactly on success, to the hash of the sent map's pre-image; state is always written |
| `HeaderResource.Read` | internal/provider/header_resource.go:196-217 | on success the stored headers are replaced, key for key, by the API's; on error the state is unchanged |
| `HeaderResource.ImportState` | internal/provider/header_resource.go:143-154 | import lists headers with an empty project and writes state only on success |
| `HeaderResource.Delete` | internal/provider/header_resource.go:220-229 | an empty map is sent and no state is written |
| `HeaderResource.ReadReturnsWhatWasWritten` | internal/provider/header_resource.go:177-217 | when the API keeps what it is sent, Read after Create or Update gives back the plan's known headers |
| `HeaderResource.AsWrittenRoundTripAddsQuotes` | internal/provider/header_resource.go:180-206 | as written, one known header comes back with quotes around it |
| `HeaderResource.ReadAfterDeleteIsEmpty` | internal/provider/header_resource.go:196-229 | after Delete, a Read stores an empty header map |
| `ProjectResource.PreviewOnly` | internal/provider/project_resource.go:129-135 | the flag travels as "true" exactly when it is known true, and as "false" otherwise |
| `ProjectResource.CredentialWarnings` | internal/provider/project_resource.go:137-151 | there is a warning exactly when one of username and password is set without the other; it names the missing one and is never an error |
| `ProjectResource.BuildRequest` | internal/provider/project_resource.go:120-156 | the credentials are sent together exactly when both are set |
| `ProjectResource.CredentialsBothOrNeither` | internal/provider/project_resource.go:137-156 | a lone credential is dropped from the request exactly when a warning is raised |
| `ProjectResource.Create` | internal/provider/project_resource.go:111-177 | the warnings come first; a call error stops with the body's message; otherwise the first project's machine name is stored |
| `ProjectResource.Read` | internal/provider/project_resource.go:180-218 | a null or unknown machine name gives an error and no call; success refreshes the machine name and forces allow_query_params false |
| `ProjectResource.ReadForgetsAllowQueryParams` | internal/provider/project_resource.go:210-210 | a project created with query parameters allowed reads back with them disallowed |
| `ProjectResource.Update` | internal/provider/project_resource.go:221-284 | Create's request goes to the plan's machine name; a call error is reported; the plan is stored anyway |
| `ProjectResource.UpdateSendsCreateRequest` | internal/provider/project_resource.go:229-262 | Update sends Create's request for the same plan |
| `ProjectResource.Delete` | internal/provider/project_resource.go:287-316 | a null machine name gives an error and no call (an unknown one does not stop it) |
| `CrawlerResource.CreateRequest` | internal/provider/crawler_resource.go:128-137 | browser mode, domain, name and the url list in order |
| `CrawlerResource.UpdateRequest` | internal/provider/crawler_resource.go:252-260 | domain, browser mode and the url list, with no name |
| `CrawlerResource.UpdateOmitsOnlyName` | internal/provider/crawler_resource.go:130-260 | the Update request is the Create request without the name |
| `CrawlerResource.Guard` | internal/provider/crawler_resource.go:158-174 | the uuid is checked before the project, and each check returns on its own |
| `CrawlerResource.Create` | internal/provider/crawler_resource.go:52-155 | the client's organization is used; state with the returned uuid is written exactly when no error is reported |
| `CrawlerResource.ReadFailureDetailAsWritten` | internal/provider/crawler_resource.go:183-183 | as written, the error appears as an extra format argument |
| `CrawlerResource.ReadFailureDetailAsWrittenGarbles` | internal/provider/crawler_resource.go:183-183 | as written, the detail never reads "Error: " followed by the message |
| `CrawlerResource.ReadFailureDetail` | internal/provider/crawler_resource.go:183-183 | corrected: the detail is "Error: " followed by the message |
| `CrawlerResource.Read` | internal/provider/crawler_resource.go:71-195 | the call is made exactly when uuid and project are present, under the overriding organization; success stores the created time, domain and verification flag; an error writes no state |
| `CrawlerResource.Update` | internal/provider/crawler_resource.go:90-272 | the guards, then the request without the name; success stores the update time; an error writes no state |
| `CrawlerResource.Delete` | internal/provider/crawler_resource.go:110-226 | the guards, then the call; no state is written |
| `CrawlerResource.OrganizationOverride` | internal/provider/crawler_resource.go:142-250 | Create uses the client's organization; Read, Update and Delete use the crawler's own when it is known |
| `CrawlerResource.CreatedCrawlerIsAddressable` | internal/provider/crawler_resource.go:152-181 | after a successful Create, Read addresses the crawler by the returned uuid |

## Left out

- API transport, authentication and endpoint choice: each call is its returned inputs. Some calls name an endpoint of another rule kind or attach no request body. Examples are the redirect Create, the auth Create and Update, and the proxy and auth Read. The model records the request that was built.
- A nil HTTP response after a transport error: the status is taken to be always present.
- JSON decoding and body reading in `ErrorFromAPIBody`: the decode outcome is an input.
- SHA-256 and hex encoding in `generateID`: the hash is a function parameter, and the model fixes its pre-image.
- Terraform framework machinery: schema objects, plan modifiers, `State.Get`/`Plan.Get` failures, and element-conversion diagnostics on lists of strings.
- `Configure` of every resource: provider wiring that stores the configured client.
- The generated request constructor behind `req.Headers` in the header resource: a nil map there would panic on the first assignment, and the constructor is not part of this model.
- Code in the source that does not compile: the header rule's Read wrapper (`callRuleHeaderRead...`), the missing `fmt` import in the header resource, and the `r.client.Admin` and `r.client.Auth` fields that the project resource and the older rule resources use but `client.Client` (internal/client/main.go:9-14) does not declare. The evident logic of each is modelled.
- Dereferences of nil pointer fields in decoded replies (for example a rule without a uuid): a returned rule or project always has one.
- `StringOrder.Less`: compares `char` values, while Go's `sort.Strings` compares UTF-8 bytes. The two orders agree for code points outside the surrogate range.
- `HeaderResource.RenderAsWritten`: quotes without Go's `%q` escaping of quotes, backslashes and non-printable characters.
- Read-back of rule fields other than the uuid in the older rule kinds: their Read updates only local copies, or only the uuid.
- The header rule's two object conversions (`ObjectValueFrom` on the whole rule against the header block's attribute types, then `As`): their diagnostics and the map they produce are an input to Create and Update. Given those arguments the first conversion plausibly always fails, which would stop both before any call; the model does not decide that outcome.
- `RuleHeaders.HeaderEntries`: the Go map holds the framework's value objects, not plain strings. How the API client encodes such an object (most likely as `{}`, since it has no exported fields) is outside this model, so each value is carried as given.

## Findings

| source | as written | input that shows it | evidently intended | confidence | as-written member | corrected member |
|---|---|---|---|---|---|---|
| internal/provider/rule_redirect_resource.go:198-204 | Create refuses when the code differs from 301 or differs from 302, which every code does | status_code = 301, the schema default | refuse only codes other than 301 and 302 | not executed; high | `RuleRedirect.CreateAsWritten` | `RuleRedirect.Create` |
| internal/provider/rule_redirect_resource.go:347-353 | Update applies the same always-true guard after the null-uuid check, so no PATCH is sent | a known uuid with status_code = 302 | send the update for 301 and 302 | not executed; high | `RuleRedirect.UpdateAsWritten` | `RuleRedirect.Update` |
| internal/provider/rule_auth_resource.go:225-226 | the request's password is set from the plan's username | auth_user = "u", auth_pass = "p" builds a request whose password is "u" (never attached; see Left out) | send the plan's password | not executed; high | `RuleAuth.BuildRequestAsWritten` | `RuleAuth.BuildRequest` |
| internal/provider/rule_header_resource.go:334-341 | the list switch compares the mode pointer with fresh allocations, so no arm matches and no list is copied | country = "country_is", country_is = ["AU"] sends the mode with no list | copy the list that matches the mode's value | not executed; high | `RuleHeader.SetFilterAsWritten` | `RuleHeader.SetFilter` |
| internal/provider/rule_header_resource.go:183-189 | the uuid guard tests `IsNull` twice, so an unknown uuid passes | an unknown uuid with a known project makes a call with an empty id | refuse a null or unknown uuid, as the project guard does | not executed; medium | `RuleHeader.GuardsAsWritten` | `RuleHeader.Guards` |
| internal/provider/rule_header_resource.go:136-138 | `ElementsAs` is given a slice, not a pointer to one, so it fails silently and no url is sent | url = ["/a"] sends no url | send the rule's url list | not executed; high | `RuleHeader.RequestUrlAsWritten` | `RuleHeader.RequestUrl` |
| internal/provider/rule_header_resource.go:149-162 | the converted header map is left in a local variable and never attached to the request, in Create and in Update (263-272) | headers = {"X-Frame" = "DENY"} with a successful conversion sends a rule with no headers | attach the converted map to the request | not executed; high | `RuleHeader.RequestHeadersAsWritten` | `RuleHeader.RequestHeaders` |
| internal/provider/header_resource.go:180-182 | header values are sent in the framework's quoted text form, so Read brings them back with quotes | headers = {"X-Frame" = "DENY"} is sent as "\"DENY\"" | send the plain string value | not executed; medium | `HeaderResource.RequestHeadersAsWritten` | `HeaderResource.RequestHeaders` |
| internal/provider/crawler_resource.go:183-183 | the read error's format string has no verb, so the message is appended as an extra argument | error "boom" gives detail "Error: %!(EXTRA string=boom)" | "Error: boom", as the other crawler calls write it | not executed; high | `CrawlerResource.ReadFailureDetailAsWritten` | `CrawlerResource.ReadFailureDetail` |

=== FILE: api.dfy ===
/**
 The boundary to the CDN API: what a lifecycle operation sends and stores,
 the abstract reply of a rules endpoint, and the two reply ladders the rule
 resources share.
 */
module Api {
  import opened Values
  import opened Diagnostics
  import opened ErrorMessages

  /**
   One API call: the organization and project path parameters, the id of the
   addressed object (None for a create or list call), and the request body
   the operation built (None when the endpoint takes none).
   */
  datatype Call<Q> = Call(org: string, project: string, id: Option<string>, request: Option<Q>)

  /**
   What one lifecycle operation does: the diagnostics it reports, the call it
   makes (None when a guard stopped it first), and the state it writes
   (None when it writes none).
   */
  datatype Outcome<Q, S> = Outcome(diags: seq<Diag>, call: Option<Call<Q>>, state: Option<S>)

  /** The organization an operation addresses: the resource's own when it is not null, else the client's. */
  function OrgFor(clientOrg: string, organization: Tf<string>): (org: string)
    ensures organization.Known? ==> org == organization.value
    ensures organization.Null? ==> org == clientOrg
    // an unknown organization is not null, so its empty value is used
    ensures organization.Unknown? ==> org == ""
  {
    if organization.Null? then clientOrg else ValueString(organization)
  }

  /**
   The reply of a rules endpoint: HTTP status, the client's error (if any),
   the body, and the uuids of the returned rules in order.
   */
  datatype RulesResponse = RulesResponse(status: int, err: Option<string>, body: Body, uuids: seq<string>)

  /** A reply that carries only the client's error, for calls whose payload is not read. */
  datatype CallResult = CallResult(err: Option<string>)

  /** Status codes of section 15.3.1 (200 OK) and section 15.5.4 (403 Forbidden) of RFC 9110. */
  const StatusOK: int := 200
  const StatusForbidden: int := 403

  const ForbiddenDetail: string := "You are not authorised to make this request, please check credentials."

  /** How far a reply ladder got: the diagnostics it added and, when it got through, the uuid it took. */
  datatype Step = Step(diags: seq<Diag>, uuid: Option<string>)

  /**
   The ladder after a Create call of the custom-response and headers rules:
   403, then any other non-200, then a call error, each stopping; otherwise
   the uuid of the first rule, where an empty list is an index panic.
   */
  function CreateLadder(r: RulesResponse): (s: Step)
    ensures s.uuid.Some? <==> r.status == StatusOK && r.err.None? && |r.uuids| > 0
    ensures s.uuid.Some? ==> s.uuid.value == r.uuids[0] && s.diags == []
    ensures s.uuid.None? ==> |s.diags| == 1 && s.diags[0].severity != Warning
    // 403 wins over everything else, and the status is judged before the call error
    ensures r.status == StatusForbidden ==> s.diags == [Err("Error create rule", ForbiddenDetail)]
    ensures r.status != StatusOK && r.status != StatusForbidden ==>
              s.diags == [Err("Error creating rule", "Could not create the rule, unexpected error " + ErrorFromApiBody(r.body))]
    ensures r.status == StatusOK && r.err.Some? ==>
              s.diags == [Err("Error creating rule", "Could not create rule, unexpected error: " + r.err.value)]
    ensures r.status == StatusOK && r.err.None? && |r.uuids| == 0 ==> Panicked(s.diags)
  {
    if r.status == StatusForbidden then
      Step([Err("Error create rule", ForbiddenDetail)], None)
    else if r.status != StatusOK then
      Step([Err("Error creating rule", "Could not create the rule, unexpected error " + ErrorFromApiBody(r.body))], None)
    else if r.err.Some? then
      Step([Err("Error creating rule", "Could not create rule, unexpected error: " + r.err.value)], None)
    else if |r.uuids| == 0 then
      Step([Crash("index out of range")], None)
    else
      Step([], Some(r.uuids[0]))
  }

  /**
   The ladder after a Read or Update call of the custom-response, redirect and
   headers rules: a call error is reported but does not stop; a non-200 then
   stops with the body's message; an empty rule list stops with "Unkonwn UUID";
   otherwise the uuid of the first rule is taken.
   */
  function RefreshLadder(r: RulesResponse, errSummary: string, errDetail: string, id: string, unknownDetail: string): (s: Step)
    ensures s.uuid.Some? <==> r.status == StatusOK && |r.uuids| > 0
    ensures s.uuid.Some? ==> s.uuid.value == r.uuids[0]
    // the call error alone never stops the ladder
    ensures s.uuid.Some? ==> (HasError(s.diags) <==> r.err.Some?)
    ensures s.uuid.None? ==> HasError(s.diags)
    ensures r.err.Some? ==> |s.diags| >= 1 && s.diags[0] == Err(errSummary, errDetail + r.err.value)
    ensures r.status == StatusOK && |r.uuids| == 0 ==> s.diags[|s.diags| - 1] == Err("Unkonwn UUID", unknownDetail)
    ensures !Panicked(s.diags)
  {
    var pre := if r.err.Some? then [Err(errSummary, errDetail + r.err.value)] else [];
    assert HasError(pre) <==> r.err.Some? by {
      if r.err.Some? { assert pre[0].severity == Error; }
    }
    if r.status != StatusOK then
      var ds := pre + [Err("Error reading header rule", "Could not load rule definition for " + id + " " + ErrorFromApiBody(r.body))];
      assert ds[|ds| - 1].severity == Error;
      Step(ds, None)
    else if |r.uuids| == 0 then
      var ds := pre + [Err("Unkonwn UUID", unknownDetail)];
      assert ds[|ds| - 1].severity == Error;
      Step(ds, None)
    else
      Step(pre, Some(r.uuids[0]))
  }
}

=== FILE: crawler_resource.dfy ===
/**
 The crawler resource: a crawl of a project's domain, created under the
 client's organization and addressed afterwards by project and uuid, under
 the crawler's own organization when it names one.
 */
module CrawlerResource {
  import opened Values
  import opened Diagnostics
  import opened Api

  datatype Crawler = Crawler(
    organization: Tf<string>,
    project: Tf<string>,
    uuid: Tf<string>,
    name: Tf<string>,
    domain: Tf<string>,
    browserMode: Tf<bool>,
    urlList: Tf<seq<string>>,
    createdAt: Tf<string>,
    updatedAt: Tf<string>,
    domainVerified: Tf<int>)

  /** The crawler request; Update leaves the name out. */
  datatype CrawlerRequest = CrawlerRequest(name: Option<string>, domain: string, browserMode: bool, urlList: seq<string>)

  /** The replies: the client's error and the fields each operation reads from the returned crawler. */
  datatype CreateReply = CreateReply(err: Option<string>, uuid: string)
  datatype ReadReply = ReadReply(err: Option<string>, createdAt: string, domain: string, domainVerified: int)
  datatype UpdateReply = UpdateReply(err: Option<string>, updatedAt: string)

  predicate Absent(v: Tf<string>) { v.Null? || v.Unknown? }

  /** The url list in order; a null or unknown list is empty. */
  function Urls(c: Crawler): seq<string> { c.urlList.ValueOr([]) }

  function CreateRequest(c: Crawler): (q: CrawlerRequest)
    ensures q.name == Some(ValueString(c.name))
    ensures q.domain == ValueString(c.domain) && q.browserMode == ValueBool(c.browserMode)
    ensures c.urlList.Known? ==> q.urlList == c.urlList.value
  {
    CrawlerRequest(Some(ValueString(c.name)), ValueString(c.domain), ValueBool(c.browserMode), Urls(c))
  }

  function UpdateRequest(c: Crawler): (q: CrawlerRequest)
    ensures q.name.None?
    ensures q.domain == ValueString(c.domain) && q.browserMode == ValueBool(c.browserMode)
    ensures c.urlList.Known? ==> q.urlList == c.urlList.value
  {
    CrawlerRequest(None, ValueString(c.domain), ValueBool(c.browserMode), Urls(c))
  }

  /** Update sends what Create sends, less the name. */
  lemma UpdateOmitsOnlyName(c: Crawler)
    ensures UpdateRequest(c) == CreateRequest(c).(name := None)
  {
  }

  /**
   The uuid is checked before the project, and each check returns on its
   own, so a crawler missing both reports only the uuid.
   */
  function Guard(c: Crawler, uuidDetail: string, projectDetail: string): (d: Option<Diag>)
    ensures d.None? <==> !Absent(c.uuid) && !Absent(c.project)
    ensures Absent(c.uuid) ==> d == Some(AttrErr("uuid", "Missing crawler.uuid attribute", uuidDetail))
    ensures !Absent(c.uuid) && Absent(c.project) ==> d == Some(AttrErr("project", "Missing crawler.project attribute", projectDetail))
  {
    if Absent(c.uuid) then Some(AttrErr("uuid", "Missing crawler.uuid attribute", uuidDetail))
    else if Absent(c.project) then Some(AttrErr("project", "Missing crawler.project attribute", projectDetail))
    else None
  }

  const ReadUuidDetail := "To read crawler information, uuid must be provided."
  const ReadProjectDetail := "To read crawler information, project must be provided."
  const WriteUuidDetail := "To read crawler information the crawler uuid must be provided"
  const WriteProjectDetail := "To read crawler information the crawler project must be provided"

  /** Create: the request under the client's organization; the wrapper stores the plan, with the returned uuid, only when no error was reported. */
  function Create(clientOrg: string, plan: Crawler, r: CreateReply): (o: Outcome<CrawlerRequest, Crawler>)
    ensures o.call == Some(Call(clientOrg, ValueString(plan.project), None, Some(CreateRequest(plan))))
    ensures o.state.Some? <==> r.err.None?
    ensures o.state.Some? ==> o.state.value == plan.(uuid := Known(r.uuid))
    ensures HasError(o.diags) <==> r.err.Some?
  {
    var call := Some(Call(clientOrg, ValueString(plan.project), None, Some(CreateRequest(plan))));
    if r.err.Some? then
      var ds := [Err("Unable to create crawler", "Error: " + r.err.value)];
      assert ds[0].severity == Error;
      Outcome(ds, call, None)
    else Outcome([], call, Some(plan.(uuid := Known(r.uuid))))
  }

  /** The read failure's detail as written: the format has no verb for the error, so Go appends it as an extra argument. */
  function ReadFailureDetailAsWritten(e: string): (t: string)
    ensures t == "Error: %!(EXTRA string=" + e + ")"
  {
    "Error: " + "%!(EXTRA string=" + e + ")"
  }

  /** As written, the detail never reads "Error: " followed by the message. */
  lemma ReadFailureDetailAsWrittenGarbles(e: string)
    ensures ReadFailureDetailAsWritten(e) != ReadFailureDetail(e)
    ensures |ReadFailureDetailAsWritten(e)| == |ReadFailureDetail(e)| + 17
  {
  }

  /** The read failure's detail as intended, in the form the other crawler calls use. */
  function ReadFailureDetail(e: string): (t: string)
    ensures |t| == |e| + 7 && t[7..] == e
  {
    "Error: " + e
  }

  /**
   Read: the guards, then the call under the crawler's organization (the
   client's when null); success refreshes the creation time, domain and
   verification flag and is stored; an error leaves the state alone.
   */
  function Read(clientOrg: string, s: Crawler, r: ReadReply): (o: Outcome<CrawlerRequest, Crawler>)
    ensures o.call.None? <==> Absent(s.uuid) || Absent(s.project)
    ensures o.call.None? ==> o.diags == [Guard(s, ReadUuidDetail, ReadProjectDetail).value] && o.state.None?
    ensures o.call.Some? ==> o.call.value == Call(OrgFor(clientOrg, s.organization), s.project.value, Some(s.uuid.value), None)
    ensures o.state.Some? <==> o.call.Some? && r.err.None?
    ensures o.state.Some? ==> o.state.value == s.(createdAt := Known(r.createdAt), domain := Known(r.domain), domainVerified := Known(r.domainVerified))
    ensures o.state.None? ==> HasError(o.diags)
  {
    var g := Guard(s, ReadUuidDetail, ReadProjectDetail);
    if g.Some? then
      var ds := [g.value];
      assert ds[0].severity == Error;
      Outcome(ds, None, None)
    else
      var call := Some(Call(OrgFor(clientOrg, s.organization), s.project.value, Some(s.uuid.value), None));
      if r.err.Some? then
        var ds := [Err("Unable to load crawler", ReadFailureDetail(r.err.value))];
        assert ds[0].severity == Error;
        Outcome(ds, call, None)
      else Outcome([], call, Some(s.(createdAt := Known(r.createdAt), domain := Known(r.domain), domainVerified := Known(r.domainVerified))))
  }

  /** Update: the guards, then the request less the name; success stores the plan with the update time. */
  function Update(clientOrg: string, plan: Crawler, r: UpdateReply): (o: Outcome<CrawlerRequest, Crawler>)
    ensures o.call.None? <==> Absent(plan.uuid) || Absent(plan.project)
    ensures o.call.None? ==> o.diags == [Guard(plan, WriteUuidDetail, WriteProjectDetail).value]
    ensures o.call.Some? ==> o.call.value == Call(OrgFor(clientOrg, plan.organization), plan.project.value, Some(plan.uuid.value), Some(UpdateRequest(plan)))
    ensures o.state.Some? <==> o.call.Some? && r.err.None?
    ensures o.state.Some? ==> o.state.value == plan.(updatedAt := Known(r.updatedAt))
    ensures o.state.None? ==> HasError(o.diags)
  {
    var g := Guard(plan, WriteUuidDetail, WriteProjectDetail);
    if g.Some? then
      var ds := [g.value];
      assert ds[0].severity == Error;
      Outcome(ds, None, None)
    else
      var call := Some(Call(OrgFor(clientOrg, plan.organization), plan.project.value, Some(plan.uuid.value), Some(UpdateRequest(plan))));
      if r.err.Some? then
        var ds := [Err("Unable to update crawler", "Error: " + r.err.value)];
        assert ds[0].severity == Error;
        Outcome(ds, call, None)
      else Outcome([], call, Some(plan.(updatedAt := Known(r.updatedAt))))
  }

  /** Delete: the guards, then the call; no state is written. */
  function Delete(clientOrg: string, s: Crawler, r: CallResult): (o: Outcome<CrawlerRequest, Crawler>)
    ensures o.state.None?
    ensures o.call.None? <==> Absent(s.uuid) || Absent(s.project)
    ensures o.call.None? ==> o.diags == [Guard(s, WriteUuidDetail, WriteProjectDetail).value]
    ensures o.call.Some? ==> o.call.value == Call(OrgFor(clientOrg, s.organization), s.project.value, Some(s.uuid.value), None)
    ensures o.call.Some? ==> (HasError(o.diags) <==> r.err.Some?)
  {
    var g := Guard(s, WriteUuidDetail, WriteProjectDetail);
    if g.Some? then Outcome([g.value], None, None)
    else
      var call := Some(Call(OrgFor(clientOrg, s.organization), s.project.value, Some(s.uuid.value), None));
      if r.err.Some? then
        var ds := [Err("Unable to delete crawler", "Error: " + r.err.value)];
        assert ds[0].severity == Error;
        Outcome(ds, call, None)
      else Outcome([], call, None)
  }

  /**
   Create always uses the client's organization; Read, Update and Delete use
   the crawler's own when it is not null.
   */
  lemma OrganizationOverride(clientOrg: string, c: Crawler, cr: CreateReply, rr: ReadReply, ur: UpdateReply, dr: CallResult)
    requires c.organization.Known? && !Absent(c.uuid) && !Absent(c.project)
    ensures Create(clientOrg, c, cr).call.value.org == clientOrg
    ensures Read(clientOrg, c, rr).call.value.org == c.organization.value
    ensures Update(clientOrg, c, ur).call.value.org == c.organization.value
    ensures Delete(clientOrg, c, dr).call.value.org == c.organization.value
  {
  }

  /** A crawler stored by a successful Create passes the guards of the operations that follow. */
  lemma CreatedCrawlerIsAddressable(clientOrg: string, plan: Crawler, cr: CreateReply, rr: ReadReply)
    requires cr.err.None? && !Absent(plan.project)
    ensures Read(clientOrg, Create(clientOrg, plan, cr).state.value, rr).call.value.id == Some(cr.uuid)
  {
  }
}

=== FILE: error_messages.dfy ===
/**
 The error text the provider shows for a failed API call, read from the
 response body. Reading the body and decoding it as JSON are outside the
 model: their outcome is the input.
 */
module ErrorMessages {
  import opened Values

  /** A decoded JSON value, as `encoding/json` produces it for an `interface{}` target. */
  datatype Json =
    | JNull
    | JBool(b: bool)
    | JNumber
    | JString(s: string)
    | JArray(items: seq<Json>)
    | JObject(fields: map<string, Json>)

  /**
   What became of the response body: it could not be read, it did not
   decode as an API error document, or it did, with its `message` member
   (None when the member is absent).
   */
  datatype Body = ReadFailed | NotApiError | Decoded(message: Option<Json>)

  const UnidentifiedError: string := "Unidentified error, please contact support."

  /** The text a message carries: a string message itself, or the string `msg` member of an object message. */
  predicate Carries(message: Json, text: string) {
    || message == JString(text)
    || (message.JObject? && "msg" in message.fields && message.fields["msg"] == JString(text))
  }

  function ErrorFromApiBody(body: Body): (text: string)
    // failures to read or decode give the generic text
    ensures !body.Decoded? ==> text == UnidentifiedError
    ensures body == Decoded(None) ==> text == UnidentifiedError
    // a message that carries text yields exactly that text
    ensures body.Decoded? && body.message.Some? && (exists t :: Carries(body.message.value, t)) ==>
              Carries(body.message.value, text)
    // any other message shape gives the generic text
    ensures body.Decoded? && body.message.Some? && (forall t :: !Carries(body.message.value, t)) ==>
              text == UnidentifiedError
  {
    match body
    case ReadFailed => UnidentifiedError
    case NotApiError => UnidentifiedError
    case Decoded(None) => UnidentifiedError
    case Decoded(Some(m)) =>
      match m
      case JString(s) => assert Carries(m, s); s
      case JObject(fields) =>
        if "msg" in fields && fields["msg"].JString? then
          assert Carries(m, fields["msg"].s); fields["msg"].s
        else UnidentifiedError
      case _ => UnidentifiedError
  }

  lemma StringMessageVerbatim(s: string)
    ensures ErrorFromApiBody(Decoded(Some(JString(s)))) == s
  {
    assert Carries(JString(s), s);
  }

  lemma ObjectMessageMsg(fields: map<string, Json>, s: string)
    requires "msg" in fields && fields["msg"] == JString(s)
    ensures ErrorFromApiBody(Decoded(Some(JObject(fields)))) == s
  {
    assert Carries(JObject(fields), s);
  }

  /** Numbers, booleans, arrays, null, and objects whose `msg` is not a string all give the generic text. */
  lemma OtherShapesUnidentified(m: Json)
    requires !m.JString?
    requires m.JObject? ==> "msg" !in m.fields || !m.fields["msg"].JString?
    ensures ErrorFromApiBody(Decoded(Some(m))) == UnidentifiedError
  {
    forall t ensures !Carries(m, t) {
    }
  }
}

=== FILE: flatten.dfy ===
/**
 Flattening of framework lists into plain Go slices, element by element,
 in order. Null and unknown elements take their type's zero value.
 */
module Flatten {
  import opened Values

  /** Each int64 element narrowed to int32 (two's complement wrap-around). */
  function FlattenToInt32(list: seq<Tf<int>>): (out: seq<int>)
    ensures |out| == |list|
    ensures forall i :: 0 <= i < |list| ==> out[i] == ToInt32(ValueInt64(list[i]))
    ensures forall i :: 0 <= i < |out| ==> IsInt32(out[i])
  {
    if list == [] then []
    else FlattenToInt32(list[..|list| - 1]) + [ToInt32(ValueInt64(list[|list| - 1]))]
  }

  function FlattenToInt64(list: seq<Tf<int>>): (out: seq<int>)
    ensures |out| == |list|
    ensures forall i :: 0 <= i < |list| ==> out[i] == ValueInt64(list[i])
  {
    if list == [] then []
    else FlattenToInt64(list[..|list| - 1]) + [ValueInt64(list[|list| - 1])]
  }

  function FlattenToStrings(list: seq<Tf<string>>): (out: seq<string>)
    ensures |out| == |list|
    ensures forall i :: 0 <= i < |list| ==> out[i] == ValueString(list[i])
  {
    if list == [] then []
    else FlattenToStrings(list[..|list| - 1]) + [ValueString(list[|list| - 1])]
  }

  /** Known strings flatten back to themselves. */
  function Knowns(xs: seq<string>): (list: seq<Tf<string>>)
    ensures |list| == |xs|
    ensures forall i :: 0 <= i < |xs| ==> list[i] == Known(xs[i])
  {
    seq(|xs|, i requires 0 <= i < |xs| => Known(xs[i]))
  }

  lemma FlattenKnownStrings(xs: seq<string>)
    ensures FlattenToStrings(Knowns(xs)) == xs
  {
  }

  /** Narrowing is the identity on lists whose values already fit in 32 bits. */
  lemma FlattenInt32Identity(list: seq<Tf<int>>)
    requires forall i :: 0 <= i < |list| ==> IsInt32(ValueInt64(list[i]))
    ensures FlattenToInt32(list) == FlattenToInt64(list)
  {
  }

  /** Flattening distributes over concatenation. */
  lemma {:induction false} FlattenStringsAppend(a: seq<Tf<string>>, b: seq<Tf<string>>)
    ensures FlattenToStrings(a + b) == FlattenToStrings(a) + FlattenToStrings(b)
  {
    var l, r := FlattenToStrings(a + b), FlattenToStrings(a) + FlattenToStrings(b);
    assert |l| == |r|;
    forall i | 0 <= i < |l| ensures l[i] == r[i] {
      if i < |a| {
        assert (a + b)[i] == a[i];
      } else {
        assert (a + b)[i] == b[i - |a|];
      }
    }
  }
}

=== FILE: header_resource.dfy ===
/**
 The project-wide custom headers resource: one map of response headers per
 project, written whole by Create and Update, emptied by Delete, and
 identified by a hash of its sorted key/value concatenation.
 */
module HeaderResource {
  import opened Values
  import opened Diagnostics
  import opened StringOrder
  import opened Api

  datatype HeaderState = HeaderState(project: Tf<string>, headers: Tf<map<string, Tf<string>>>, id: Tf<string>)

  /** The elements of a map value; a null or unknown map has none. */
  function Elements(h: Tf<map<string, Tf<string>>>): map<string, Tf<string>> {
    h.ValueOr(map[])
  }

  /** Every element of the map is a known string. */
  predicate AllKnown(h: Tf<map<string, Tf<string>>>) {
    h.Known? && forall k :: k in h.value ==> h.value[k].Known?
  }

  // ---- the id ----

  /** Concatenate key and value for each key of `keys`, in that order, with no separator. */
  function Join(m: map<string, string>, keys: seq<string>): string
    requires forall i :: 0 <= i < |keys| ==> keys[i] in m
  {
    if keys == [] then ""
    else Join(m, keys[..|keys| - 1]) + keys[|keys| - 1] + m[keys[|keys| - 1]]
  }

  /** Some listing of a finite set of strings, each once. */
  ghost function Enumerate(s: set<string>): (ks: seq<string>)
    ensures Distinct(ks) && Elems(ks) == s
    decreases s
  {
    if s == {} then []
    else
      var k :| k in s;
      var rest := Enumerate(s - {k});
      assert Elems([k] + rest) == {k} + Elems(rest);
      [k] + rest
  }

  /** The keys of a map in ascending order. */
  ghost function SortedKeys(m: map<string, string>): (ks: seq<string>)
    ensures StrictlySorted(ks) && Elems(ks) == m.Keys
  {
    Sort(Enumerate(m.Keys))
  }

  /** The text the id hashes: every key followed by its value, keys ascending. */
  ghost function PreImage(m: map<string, string>): string {
    Join(m, SortedKeys(m))
  }

  /** Any ascending listing of the keys gives the pre-image. */
  lemma PreImageIsAscendingConcat(m: map<string, string>, ks: seq<string>)
    requires StrictlySorted(ks) && Elems(ks) == m.Keys
    ensures forall i :: 0 <= i < |ks| ==> ks[i] in m
    ensures PreImage(m) == Join(m, ks)
  {
    SortedUnique(ks, SortedKeys(m));
  }

  /** With no separator, distinct maps can share a pre-image and so an id. */
  lemma PreImageCollision()
    ensures map["ab" := "c"] != map["a" := "bc"]
    ensures PreImage(map["ab" := "c"]) == PreImage(map["a" := "bc"]) == "abc"
  {
    var m1 := map["ab" := "c"];
    var m2 := map["a" := "bc"];
    assert "ab" in m1 && "ab" !in m2;
    PreImageIsAscendingConcat(m1, ["ab"]);
    PreImageIsAscendingConcat(m2, ["a"]);
    assert Join(m1, ["ab"]) == Join(m1, []) + "ab" + "c";
    assert Join(m2, ["a"]) == Join(m2, []) + "a" + "bc";
  }

  /**
   The id of a header map: collect the keys in the map's iteration order
   (left open here), sort them, concatenate each key with its value and
   hash the result. Whatever order the keys come out in, the id is that of
   the ascending pre-image.
   */
  method GenerateId(m: map<string, string>, hash: string -> string) returns (id: string)
    ensures id == hash(PreImage(m))
  {
    var keys := CollectKeys(m);
    var sorted := Sort(keys);
    var sb := Concatenate(m, sorted);
    PreImageIsAscendingConcat(m, sorted);
    id := hash(sb);
  }

  /** The keys of a map, each once, in an order the map's iteration picks. */
  method CollectKeys(m: map<string, string>) returns (keys: seq<string>)
    ensures Distinct(keys) && Elems(keys) == m.Keys
  {
    keys := [];
    var rest := m.Keys;
    while rest != {}
      invariant Distinct(keys)
      invariant Elems(keys) + rest == m.Keys && Elems(keys) !! rest
      decreases |rest|
    {
      var k :| k in rest;
      assert Elems(keys + [k]) == Elems(keys) + {k};
      keys := keys + [k];
      rest := rest - {k};
    }
  }

  /** Each key followed by its value, in the order of `keys`. */
  method Concatenate(m: map<string, string>, keys: seq<string>) returns (sb: string)
    requires forall j :: 0 <= j < |keys| ==> keys[j] in m
    ensures sb == Join(m, keys)
  {
    sb := "";
    var i := 0;
    while i < |keys|
      invariant 0 <= i <= |keys|
      invariant sb == Join(m, keys[..i])
    {
      assert keys[..i + 1][..i] == keys[..i];
      sb := sb + keys[i] + m[keys[i]];
      i := i + 1;
    }
    assert keys[..|keys|] == keys;
  }

  // ---- the request map ----

  /** The framework's text form of a string value, as the request map is filled: quoted, or a placeholder for null and unknown. */
  function RenderAsWritten(v: Tf<string>): (t: string)
    ensures v.Known? ==> t == "\"" + v.value + "\""
    ensures v.Known? ==> t != v.value
  {
    match v
    case Null => "<null>"
    case Unknown => "<unknown>"
    case Known(s) =>
      var t := "\"" + s + "\"";
      assert |t| == |s| + 2;
      t
  }

  /** The request map as written: every plan element under its key, in the framework's quoted text form. */
  function RequestHeadersAsWritten(h: Tf<map<string, Tf<string>>>): (m: map<string, string>)
    ensures m.Keys == Elements(h).Keys
    ensures forall k :: k in m ==> m[k] == RenderAsWritten(Elements(h)[k])
  {
    map k | k in Elements(h) :: RenderAsWritten(Elements(h)[k])
  }

  /** The request map as intended: every plan element under its key, holding the plain string. */
  function RequestHeaders(h: Tf<map<string, Tf<string>>>): (m: map<string, string>)
    ensures m.Keys == Elements(h).Keys
    ensures forall k :: k in m ==> m[k] == ValueString(Elements(h)[k])
  {
    map k | k in Elements(h) :: ValueString(Elements(h)[k])
  }

  /** The API's headers as a map value: each string known. */
  function FromApi(api: map<string, string>): (h: Tf<map<string, Tf<string>>>)
    ensures h.Known? && h.value.Keys == api.Keys
    ensures forall k :: k in api ==> h.value[k] == Known(api[k])
  {
    Known(map k | k in api :: Known(api[k]))
  }

  /** The reply to the list call: an error from the client, or the project's headers. */
  datatype HeadersReply = HeadersReply(err: Option<string>, headers: map<string, string>)

  // ---- lifecycle ----

  /**
   Create and Update alike: send the plan's headers under the client's
   organization; on success the id is the hash of the sent map. The wrapper
   stores the plan in every case.
   */
  method CreateUpdate(clientOrg: string, plan: HeaderState, r: CallResult, hash: string -> string)
    returns (o: Outcome<map<string, string>, HeaderState>)
    ensures o.call == Some(Call(clientOrg, ValueString(plan.project), None, Some(RequestHeaders(plan.headers))))
    ensures o.call.value.request.value.Keys == Elements(plan.headers).Keys
    ensures r.err.Some? ==> o.diags == [Err("Failed to add custom headers", r.err.value)] && o.state == Some(plan)
    ensures r.err.None? ==> o.diags == [] && o.state == Some(plan.(id := Known(hash(PreImage(RequestHeaders(plan.headers))))))
  {
    var req := RequestHeaders(plan.headers);
    var call := Some(Call(clientOrg, ValueString(plan.project), None, Some(req)));
    if r.err.Some? {
      o := Outcome([Err("Failed to add custom headers", r.err.value)], call, Some(plan));
    } else {
      var id := GenerateId(req, hash);
      o := Outcome([], call, Some(plan.(id := Known(id))));
    }
  }

  /** Read: list the project's headers and replace the stored map with them, key for key. The wrapper stores the state in every case. */
  function Read(clientOrg: string, s: HeaderState, r: HeadersReply): (o: Outcome<map<string, string>, HeaderState>)
    ensures o.call == Some(Call(clientOrg, ValueString(s.project), None, None))
    ensures r.err.Some? ==> o.diags == [Err("Error retrieving headers", r.err.value)] && o.state == Some(s)
    ensures r.err.None? ==> o.diags == [] && o.state.Some?
    ensures r.err.None? ==> o.state.value.project == s.project && o.state.value.id == s.id
    ensures r.err.None? ==> o.state.value.headers.Known? && o.state.value.headers.value.Keys == r.headers.Keys
    ensures r.err.None? ==> forall k :: k in r.headers ==> o.state.value.headers.value[k] == Known(r.headers[k])
  {
    var call := Some(Call(clientOrg, ValueString(s.project), None, None));
    if r.err.Some? then Outcome([Err("Error retrieving headers", r.err.value)], call, Some(s))
    else Outcome([], call, Some(s.(headers := FromApi(r.headers))))
  }

  /** Import reads into an empty state, so the list call names no project; state is written only on success. */
  function ImportState(clientOrg: string, r: HeadersReply): (o: Outcome<map<string, string>, HeaderState>)
    ensures o.call.Some? && o.call.value.project == ""
    ensures o.state.Some? <==> r.err.None?
    ensures o.state.Some? ==> o.state.value.project.Null? && o.state.value.id.Null?
  {
    var o := Read(clientOrg, HeaderState(Null, Null, Null), r);
    if r.err.Some? then o.(state := None) else o
  }

  /** Delete: send an empty header map; no state is written. */
  function Delete(clientOrg: string, s: HeaderState, r: CallResult): (o: Outcome<map<string, string>, HeaderState>)
    ensures o.call == Some(Call(clientOrg, ValueString(s.project), None, Some(map[])))
    ensures o.state.None?
    ensures HasError(o.diags) <==> r.err.Some?
  {
    var call := Some(Call(clientOrg, ValueString(s.project), None, Some(map[])));
    if r.err.Some? then
      var ds := [Err("Error removing custom headers", r.err.value)];
      assert ds[0].severity == Error;
      Outcome(ds, call, None)
    else Outcome([], call, None)
  }

  /**
   When the API keeps what it is sent, a Read after Create or Update gives
   back the plan's headers, as long as every element was known.
   */
  lemma ReadReturnsWhatWasWritten(clientOrg: string, plan: HeaderState)
    requires AllKnown(plan.headers)
    ensures Read(clientOrg, plan, HeadersReply(None, RequestHeaders(plan.headers))).state.value.headers == plan.headers
  {
    var got := Read(clientOrg, plan, HeadersReply(None, RequestHeaders(plan.headers))).state.value.headers;
    assert got.value.Keys == plan.headers.value.Keys;
    var h := plan.headers.value;
    forall k | k in got.value ensures got.value[k] == h[k] {
      assert got.value[k] == Known(RequestHeaders(plan.headers)[k]) == Known(ValueString(h[k]));
    }
    assert got.value == h;
  }

  /** As written, the quoted values come back with their quotes, so even one known header does not survive the round trip. */
  lemma AsWrittenRoundTripAddsQuotes(clientOrg: string, plan: HeaderState)
    requires plan.headers == Known(map["X-Frame" := Known("DENY")])
    ensures Read(clientOrg, plan, HeadersReply(None, RequestHeadersAsWritten(plan.headers))).state.value.headers != plan.headers
  {
    var got := Read(clientOrg, plan, HeadersReply(None, RequestHeadersAsWritten(plan.headers))).state.value.headers;
    assert "X-Frame" in Elements(plan.headers);
    assert RequestHeadersAsWritten(plan.headers)["X-Frame"] == RenderAsWritten(Known("DENY")) == "\"DENY\"";
    assert got.value["X-Frame"] == Known("\"DENY\"");
    assert "\"DENY\""[0] == '"' && "DENY"[0] == 'D';
  }

  /** A Read after Delete, when the API keeps the empty map, stores no headers. */
  lemma ReadAfterDeleteIsEmpty(clientOrg: string, s: HeaderState)
    ensures Read(clientOrg, s, HeadersReply(None, Delete(clientOrg, s, CallResult(None)).call.value.request.value)).state.value.headers == Known(map[])
  {
  }
}

=== FILE: legacy_rule.dfy ===
/**
 What the older rule resources (proxy, custom response, redirect, headers,
 auth) share: the plan fields, the request shape, and the Read, Update and
 Delete skeletons that differ between them only in messages.
 */
module LegacyRule {
  import opened Values
  import opened Diagnostics
  import opened Selection
  import opened Api

  /** A rule plan or state; `fields` holds the kind's own behaviour attributes. */
  datatype RulePlan<F> = RulePlan(
    name: Tf<string>,
    uuid: Tf<string>,
    project: Tf<string>,
    disabled: Tf<bool>,
    domain: Tf<string>,
    url: Tf<string>,
    criteria: Criteria,
    onlyWithCookie: Tf<string>,
    fields: F)

  /** A rule request; `disabled` is None when the operation never sets it, `behaviour` is the kind's own part. */
  datatype RuleRequest<B> = RuleRequest(
    name: string,
    disabled: Option<bool>,
    domain: string,
    url: string,
    filters: Filters,
    behaviour: B)

  const Wildcard: string := "*"

  /** A null url becomes the wildcard "*"; everything else is kept. */
  function WithDefaultUrl<F>(p: RulePlan<F>): (q: RulePlan<F>)
    ensures q.url.Known?  || q.url.Unknown?
    ensures p.url.Null? ==> q.url == Known(Wildcard)
    ensures !p.url.Null? ==> q == p
    ensures q.(url := p.url) == p
  {
    if p.url.Null? then p.(url := Known(Wildcard)) else p
  }

  /** The project path parameter every call takes. */
  function ProjectOf<F>(p: RulePlan<F>): string { ValueString(p.project) }

  const CriteriaMissingDiag: Diag :=
    Err("Rule criteria is missing", "Could not crete a rule due to missing criteria; must provide country, ip and/or method")

  /** The criteria error is recorded exactly when no include flag is set at all. */
  function CriteriaCheck(c: Criteria): (ds: seq<Diag>)
    ensures HasError(ds) <==> c.Missing()
    ensures ds == [] || ds == [CriteriaMissingDiag]
  {
    if c.Missing() then
      assert [CriteriaMissingDiag][0].severity == Error;
      [CriteriaMissingDiag]
    else []
  }

  const UuidNullWarning: Diag :=
    Warn("Rule uuid is null", "The rule uuid is null and data is not able to be updated from the API")

  /**
   The Read and Update skeleton of the custom-response, redirect and headers
   rules: a null uuid warns and rewrites the state as it is, without a call;
   otherwise the call is made (with `request`, None for a read) and the
   refresh ladder decides whether the state, with the first returned uuid,
   is written.
   */
  function Refresh<F, Q>(org: string, p: RulePlan<F>, request: Option<Q>, r: RulesResponse,
                         errSummary: string, errDetail: string, unknownSep: string): (o: Outcome<Q, RulePlan<F>>)
    ensures p.uuid.Null? ==> o == Outcome([UuidNullWarning], None, Some(p))
    ensures !p.uuid.Null? ==> o.call == Some(Call(org, ProjectOf(p), Some(ValueString(p.uuid)), request))
    // state is written after the call exactly when the reply names a rule, and only the uuid moves
    ensures !p.uuid.Null? ==> (o.state.Some? <==> r.status == StatusOK && |r.uuids| > 0)
    ensures !p.uuid.Null? && o.state.Some? ==> o.state.value == p.(uuid := Known(r.uuids[0]))
    ensures !p.uuid.Null? && o.state.None? ==> HasError(o.diags)
    ensures !p.uuid.Null? && r.err.Some? ==> |o.diags| >= 1 && o.diags[0] == Err(errSummary, errDetail + r.err.value)
    ensures !p.uuid.Null? && r.status == StatusOK && |r.uuids| == 0 ==>
              |o.diags| >= 1 && o.diags[|o.diags| - 1] == Err("Unkonwn UUID", "Could not load rule definition for" + unknownSep + ValueString(p.uuid))
    ensures !Panicked(o.diags)
  {
    if p.uuid.Null? then Outcome([UuidNullWarning], None, Some(p))
    else
      var id := ValueString(p.uuid);
      var s := RefreshLadder(r, errSummary, errDetail, id, "Could not load rule definition for" + unknownSep + id);
      Outcome(s.diags, Some(Call(org, ProjectOf(p), Some(id), request)),
              if s.uuid.Some? then Some(p.(uuid := Known(s.uuid.value))) else None)
  }

  /**
   The Create skeleton of the custom-response and headers rules: the call is
   always made, and the create ladder decides whether the plan, with the
   first returned uuid, is written.
   */
  function CreateWithLadder<F, Q>(org: string, p: RulePlan<F>, q: Q, r: RulesResponse): (o: Outcome<Q, RulePlan<F>>)
    ensures o.call == Some(Call(org, ProjectOf(p), None, Some(q)))
    ensures o.state.Some? <==> r.status == StatusOK && r.err.None? && |r.uuids| > 0
    ensures o.state.Some? ==> o.state.value == p.(uuid := Known(r.uuids[0])) && o.diags == []
    ensures o.state.None? ==> HasError(o.diags) || Panicked(o.diags)
  {
    var s := CreateLadder(r);
    if s.uuid.Some? then Outcome(s.diags, Some(Call(org, ProjectOf(p), None, Some(q))), Some(p.(uuid := Known(s.uuid.value))))
    else
      assert s.diags[0].severity == Error || s.diags[0].severity == Panic;
      Outcome(s.diags, Some(Call(org, ProjectOf(p), None, Some(q))), None)
  }

  /**
   Delete guarded by an error on a null project (proxy, custom response,
   auth): no call then; otherwise the rule is deleted by uuid and a call
   error is reported. Delete never writes state.
   */
  function DeleteIfProject<F>(org: string, s: RulePlan<F>, r: CallResult, guardSummary: string, errSummary: string, errDetail: string): (o: Outcome<(), RulePlan<F>>)
    ensures o.state.None?
    ensures s.project.Null? <==> o.call.None?
    ensures s.project.Null? ==> o.diags == [Err(guardSummary, "Invalid state: project machine name is unknown.")]
    ensures o.call.Some? ==> o.call.value == Call(org, ProjectOf(s), Some(ValueString(s.uuid)), None)
    ensures o.call.Some? ==> (HasError(o.diags) <==> r.err.Some?)
    ensures o.call.Some? && r.err.Some? ==> o.diags == [Err(errSummary, errDetail + r.err.value)]
  {
    if s.project.Null? then Outcome([Err(guardSummary, "Invalid state: project machine name is unknown.")], None, None)
    else
      var ds := if r.err.Some? then [Err(errSummary, errDetail + r.err.value)] else [];
      assert r.err.Some? ==> ds[0].severity == Error;
      Outcome(ds, Some(Call(org, ProjectOf(s), Some(ValueString(s.uuid)), None)), None)
  }

  const DeleteWarnSummary: string := "Unable to delete rule"

  /**
   Delete guarded by warnings (redirect, headers): a null project, then a
   null uuid, each warns and stops without a call; a warning is not an
   error, so the framework still drops the resource.
   */
  function DeleteIfIdentified<F>(org: string, s: RulePlan<F>, r: CallResult): (o: Outcome<(), RulePlan<F>>)
    ensures o.state.None?
    ensures o.call.None? <==> s.project.Null? || s.uuid.Null?
    ensures o.call.None? ==> |o.diags| == 1 && Quiet(o.diags)
    ensures s.project.Null? ==> o.diags == [Warn(DeleteWarnSummary, "Invalid state: project machine name is unknown.")]
    ensures !s.project.Null? && s.uuid.Null? ==> o.diags == [Warn(DeleteWarnSummary, "Invalid state: UUID is unknown.")]
    ensures o.call.Some? ==> o.call.value == Call(org, ProjectOf(s), Some(s.uuid.ValueOr("")), None)
    ensures o.call.Some? ==> (HasError(o.diags) <==> r.err.Some?)
    ensures o.call.Some? && r.err.Some? ==> o.diags == [Err("Error Deleting rule ", "Could not delete rule, unexpected error: " + r.err.value)]
  {
    if s.project.Null? then Outcome([Warn(DeleteWarnSummary, "Invalid state: project machine name is unknown.")], None, None)
    else if s.uuid.Null? then Outcome([Warn(DeleteWarnSummary, "Invalid state: UUID is unknown.")], None, None)
    else
      var ds := if r.err.Some? then [Err("Error Deleting rule ", "Could not delete rule, unexpected error: " + r.err.value)] else [];
      assert r.err.Some? ==> ds[0].severity == Error;
      Outcome(ds, Some(Call(org, ProjectOf(s), Some(ValueString(s.uuid)), None)), None)
  }
}

=== FILE: project_resource.dfy ===
/**
 The project resource: name, region, query-parameter handling and an
 optional basic-auth pair, addressed by the machine name the API assigns.
 */
module ProjectResource {
  import opened Values
  import opened Diagnostics
  import opened ErrorMessages
  import opened Api

  datatype Project = Project(
    name: Tf<string>,
    machineName: Tf<string>,
    region: Tf<string>,
    allowQueryParams: Tf<bool>,
    basicAuthUsername: Tf<string>,
    basicAuthPassword: Tf<string>,
    basicAuthPreviewOnly: Tf<bool>)

  /** The project request; the credentials are absent unless both were set. */
  datatype ProjectRequest = ProjectRequest(
    name: string,
    region: string,
    allowQueryParams: bool,
    basicAuthPreviewOnly: string,
    basicAuthUsername: Option<string>,
    basicAuthPassword: Option<string>)

  /** The reply to a project call: the client's error, the response body, and the machine names of the returned projects. */
  datatype ProjectReply = ProjectReply(err: Option<string>, body: Body, machineNames: seq<string>)

  /** An attribute counts as set when it is not null; an unknown value is set. */
  predicate IsSet<T>(v: Tf<T>) { !v.Null? }

  /** The preview-only flag travels as the text "true" or "false". */
  function PreviewOnly(p: Project): (s: string)
    ensures s == "true" <==> p.basicAuthPreviewOnly == Known(true)
    ensures s == "true" || s == "false"
  {
    if ValueBool(p.basicAuthPreviewOnly) then "true" else "false"
  }

  const PasswordMissing: Diag := AttrWarn("basic_auth_password", "Basic auth password needs to be configured",
                                          "Both basic auth username and password must be set, missing basic auth password")
  const UsernameMissing: Diag := AttrWarn("basic_auth_username", "Basic auth username needs to be configured",
                                          "Both basic auth username and password must be set, missing basic auth username")

  /** A warning naming the missing half when exactly one of the pair is set. */
  function CredentialWarnings(p: Project): (ds: seq<Diag>)
    ensures !HasError(ds) && !Panicked(ds)
    ensures |ds| > 0 <==> IsSet(p.basicAuthUsername) != IsSet(p.basicAuthPassword)
    ensures |ds| > 0 ==> ds == if IsSet(p.basicAuthUsername) then [PasswordMissing] else [UsernameMissing]
  {
    var a := if !IsSet(p.basicAuthPassword) && IsSet(p.basicAuthUsername) then [PasswordMissing] else [];
    var b := if IsSet(p.basicAuthPassword) && !IsSet(p.basicAuthUsername) then [UsernameMissing] else [];
    a + b
  }

  /** The request Create and Update both send. */
  function BuildRequest(p: Project): (q: ProjectRequest)
    ensures q.name == ValueString(p.name) && q.region == ValueString(p.region)
    ensures q.allowQueryParams == ValueBool(p.allowQueryParams)
    ensures q.basicAuthPreviewOnly == PreviewOnly(p)
    ensures q.basicAuthUsername.Some? <==> IsSet(p.basicAuthUsername) && IsSet(p.basicAuthPassword)
    ensures q.basicAuthPassword.Some? <==> q.basicAuthUsername.Some?
    ensures q.basicAuthUsername.Some? ==>
              q.basicAuthUsername.value == ValueString(p.basicAuthUsername) && q.basicAuthPassword.value == ValueString(p.basicAuthPassword)
  {
    var both := IsSet(p.basicAuthUsername) && IsSet(p.basicAuthPassword);
    ProjectRequest(
      ValueString(p.name), ValueString(p.region), ValueBool(p.allowQueryParams), PreviewOnly(p),
      if both then Some(ValueString(p.basicAuthUsername)) else None,
      if both then Some(ValueString(p.basicAuthPassword)) else None)
  }

  /** Credentials are never sent half: a warning stands exactly where the request drops a lone username or password. */
  lemma CredentialsBothOrNeither(p: Project)
    ensures (BuildRequest(p).basicAuthUsername.None? && (IsSet(p.basicAuthUsername) || IsSet(p.basicAuthPassword)))
              <==> |CredentialWarnings(p)| > 0
  {
  }

  /**
   Create: warn about a lone credential, send the request under the client's
   organization; a call error stops with the API body's message; otherwise
   the first returned project's machine name is stored.
   */
  function Create(clientOrg: string, plan: Project, r: ProjectReply): (o: Outcome<ProjectRequest, Project>)
    ensures o.call == Some(Call(clientOrg, "", None, Some(BuildRequest(plan))))
    ensures |CredentialWarnings(plan)| <= |o.diags| && o.diags[..|CredentialWarnings(plan)|] == CredentialWarnings(plan)
    ensures o.state.Some? <==> r.err.None? && |r.machineNames| > 0
    ensures o.state.Some? ==> o.state.value == plan.(machineName := Known(r.machineNames[0])) && !HasError(o.diags)
    ensures r.err.Some? ==> o.diags == CredentialWarnings(plan) + [Err("Error creating project", "Could not create project\n" + ErrorFromApiBody(r.body))]
  {
    var ws := CredentialWarnings(plan);
    var call := Some(Call(clientOrg, "", None, Some(BuildRequest(plan))));
    if r.err.Some? then
      Outcome(ws + [Err("Error creating project", "Could not create project\n" + ErrorFromApiBody(r.body))], call, None)
    else if |r.machineNames| == 0 then Outcome(ws + [Crash("index out of range")], call, None)
    else Outcome(ws, call, Some(plan.(machineName := Known(r.machineNames[0]))))
  }

  /**
   Read: a null or unknown machine name stops before any call; a call error
   stops; otherwise the machine name is refreshed and the query-parameter
   flag is forced to false.
   */
  function Read(clientOrg: string, s: Project, r: ProjectReply): (o: Outcome<ProjectRequest, Project>)
    ensures o.call.None? <==> s.machineName.Null? || s.machineName.Unknown?
    ensures o.call.None? ==> o.diags == [Err("Error reading project data", "Could not read Quant project data, project machine name unknown.")]
    ensures o.call.Some? ==> o.call.value == Call(clientOrg, s.machineName.value, None, None)
    ensures o.state.Some? <==> o.call.Some? && r.err.None? && |r.machineNames| > 0
    ensures o.state.Some? ==> o.state.value == s.(allowQueryParams := Known(false), machineName := Known(r.machineNames[0]))
    ensures o.call.Some? && r.err.Some? ==> HasError(o.diags)
  {
    if s.machineName.Null? || s.machineName.Unknown? then
      Outcome([Err("Error reading project data", "Could not read Quant project data, project machine name unknown.")], None, None)
    else
      var mn := s.machineName.value;
      var call := Some(Call(clientOrg, mn, None, None));
      if r.err.Some? then
        var ds := [Err("Error reading project data", "Could not read Quant project " + mn + ": " + r.err.value)];
        assert ds[0].severity == Error;
        Outcome(ds, call, None)
      else if |r.machineNames| == 0 then Outcome([Crash("index out of range")], call, None)
      else Outcome([], call, Some(s.(allowQueryParams := Known(false), machineName := Known(r.machineNames[0]))))
  }

  /** A project created with query parameters allowed reads back with them disallowed. */
  lemma ReadForgetsAllowQueryParams(clientOrg: string, plan: Project, created: ProjectReply, read: ProjectReply)
    requires plan.allowQueryParams == Known(true)
    requires created.err.None? && |created.machineNames| > 0 && read.err.None? && |read.machineNames| > 0
    ensures Read(clientOrg, Create(clientOrg, plan, created).state.value, read).state.value.allowQueryParams == Known(false)
    ensures Read(clientOrg, Create(clientOrg, plan, created).state.value, read).state.value != Create(clientOrg, plan, created).state.value
  {
  }

  /** Update: the Create request sent to the plan's machine name; a call error is reported but the plan is stored anyway. */
  function Update(clientOrg: string, plan: Project, r: CallResult): (o: Outcome<ProjectRequest, Project>)
    ensures o.call == Some(Call(clientOrg, ValueString(plan.machineName), None, Some(BuildRequest(plan))))
    ensures o.state == Some(plan)
    ensures HasError(o.diags) <==> r.err.Some?
    ensures |CredentialWarnings(plan)| <= |o.diags| && o.diags[..|CredentialWarnings(plan)|] == CredentialWarnings(plan)
  {
    var ws := CredentialWarnings(plan);
    var call := Some(Call(clientOrg, ValueString(plan.machineName), None, Some(BuildRequest(plan))));
    if r.err.Some? then
      var ds := ws + [Err("Error Updating Quant Projet", "Could not update order, unexpected error: " + r.err.value)];
      assert ds[|ds| - 1].severity == Error;
      Outcome(ds, call, Some(plan))
    else Outcome(ws, call, Some(plan))
  }

  /** For the same plan, Update sends what Create sends and raises the same warnings. */
  lemma UpdateSendsCreateRequest(clientOrg: string, plan: Project, c: ProjectReply, u: CallResult)
    ensures Update(clientOrg, plan, u).call.value.request == Create(clientOrg, plan, c).call.value.request
  {
  }

  /** Delete: a null machine name stops before any call (an unknown one does not); a call error is reported. */
  function Delete(clientOrg: string, s: Project, r: CallResult): (o: Outcome<ProjectRequest, Project>)
    ensures o.state.None?
    ensures o.call.None? <==> s.machineName.Null?
    ensures o.call.None? ==> o.diags == [Err("Error Deleting Quant project", "Invalid state: project machine name is unknown.")]
    ensures o.call.Some? ==> o.call.value == Call(clientOrg, ValueString(s.machineName), None, None)
    ensures o.call.Some? ==> (HasError(o.diags) <==> r.err.Some?)
  {
    if s.machineName.Null? then
      Outcome([Err("Error Deleting Quant project", "Invalid state: project machine name is unknown.")], None, None)
    else
      var call := Some(Call(clientOrg, ValueString(s.machineName), None, None));
      if r.err.Some? then
        var ds := [Err("Error Deleting Quant project", "Could not delete project, unexpected error: " + r.err.value)];
        assert ds[0].severity == Error;
        Outcome(ds, call, None)
      else Outcome([], call, None)
  }
}

=== FILE: rule_auth.dfy ===
/**
 The basic-auth rule: credentials demanded for the selected requests. The
 request builder is given as written (the password slot filled from the
 username) and as intended.
 */
module RuleAuth {
  import opened Values
  import opened Diagnostics
  import opened RuleFilters
  import opened Selection
  import opened Api
  import opened LegacyRule

  datatype AuthFields = AuthFields(authUser: Tf<string>, authPass: Tf<string>)

  type AuthPlan = RulePlan<AuthFields>

  datatype AuthBehaviour = AuthBehaviour(authUser: string, authPass: string)

  type AuthRequest = RuleRequest<AuthBehaviour>

  function Request(p: AuthPlan, b: AuthBehaviour): AuthRequest {
    RuleRequest(ValueString(p.name), Some(ValueBool(p.disabled)), ValueString(p.domain), ValueString(p.url),
                EachDimension((d, c) => AnyOrList(c), p.criteria), b)
  }

  /** The request as written: both credential slots hold the username. */
  function BuildRequestAsWritten(p: AuthPlan): (q: AuthRequest)
    ensures q.behaviour.authUser == ValueString(p.fields.authUser)
  {
    Request(p, AuthBehaviour(ValueString(p.fields.authUser), ValueString(p.fields.authUser)))
  }

  /** Whatever the plan, the password sent as written is the username. */
  lemma AsWrittenSendsUserAsPassword(p: AuthPlan)
    ensures BuildRequestAsWritten(p).behaviour.authPass == ValueString(p.fields.authUser)
    ensures ValueString(p.fields.authPass) != ValueString(p.fields.authUser) ==>
              BuildRequestAsWritten(p).behaviour.authPass != ValueString(p.fields.authPass)
  {
  }

  /**
   The request as intended, used by Create and Update: the plan's own
   credentials, and a selection that reads back exactly as the plan asks.
   */
  function BuildRequest(p: AuthPlan): (q: AuthRequest)
    ensures q.behaviour == AuthBehaviour(ValueString(p.fields.authUser), ValueString(p.fields.authPass))
    ensures forall d: Dimension :: Interpret(d, q.filters.Of(d)) == Intended(p.criteria.Of(d))
    ensures q.disabled.Some?
    ensures q.name == ValueString(p.name) && q.domain == ValueString(p.domain) && q.url == ValueString(p.url)
    ensures q.disabled == Some(ValueBool(p.disabled))
  {
    var q := Request(p, AuthBehaviour(ValueString(p.fields.authUser), ValueString(p.fields.authPass)));
    forall d: Dimension ensures Interpret(d, q.filters.Of(d)) == Intended(p.criteria.Of(d)) {
      AnyOrListReadsBack(d, p.criteria.Of(d));
    }
    q
  }

  /** The two builders differ in the password alone, and only when it differs from the username. */
  lemma CorrectionOnlyTouchesPassword(p: AuthPlan)
    ensures BuildRequest(p) == BuildRequestAsWritten(p).(behaviour := BuildRequestAsWritten(p).behaviour.(authPass := ValueString(p.fields.authPass)))
    ensures BuildRequest(p) == BuildRequestAsWritten(p) <==> ValueString(p.fields.authPass) == ValueString(p.fields.authUser)
  {
  }

  /**
   Create: the criteria error does not stop the call; a call error is
   reported and the uuid is still looked up, where an empty rule list
   panics. The reply's status is not looked at.
   */
  function Create(org: string, p: AuthPlan, r: RulesResponse): (o: Outcome<AuthRequest, AuthPlan>)
    ensures o.call.Some? && o.call.value.request == Some(BuildRequest(WithDefaultUrl(p)))
    ensures p.url.Null? ==> o.call.value.request.value.url == Wildcard
    ensures o.state.Some? <==> |r.uuids| > 0
    ensures o.state.Some? ==> o.state.value == WithDefaultUrl(p).(uuid := Known(r.uuids[0]))
    ensures o.state.Some? ==> (HasError(o.diags) <==> p.criteria.Missing() || r.err.Some?)
  {
    var p' := WithDefaultUrl(p);
    var pre := CriteriaCheck(p.criteria);
    var errs := if r.err.Some? then [Err("Error creating rule", "Could not create rule, unexpected error: " + r.err.value)] else [];
    var ds := pre + errs;
    assert HasError(ds) <==> HasError(pre) || r.err.Some? by {
      if r.err.Some? { assert ds[|ds| - 1].severity == Error; }
      if HasError(pre) { assert pre[0].severity == Error && ds[0] == pre[0]; }
    }
    var call := Some(Call(org, ProjectOf(p'), None, Some(BuildRequest(p'))));
    if |r.uuids| == 0 then Outcome(ds + [Crash("index out of range")], call, None)
    else Outcome(ds, call, Some(p'.(uuid := Known(r.uuids[0]))))
  }

  /** Read never writes state; it indexes the reply before it looks at the error. */
  function Read(org: string, s: AuthPlan, r: RulesResponse): (o: Outcome<AuthRequest, AuthPlan>)
    ensures o.state.None?
    ensures o.call == Some(Call(org, ProjectOf(s), Some(ValueString(s.uuid)), None))
    ensures |r.uuids| == 0 ==> Panicked(o.diags)
    ensures HasError(o.diags) <==> |r.uuids| > 0 && r.err.Some?
  {
    var call := Some(Call(org, ProjectOf(s), Some(ValueString(s.uuid)), None));
    if |r.uuids| == 0 then
      var ds := [Crash("index out of range")];
      assert ds[0].severity == Panic;
      Outcome(ds, call, None)
    else if r.err.Some? then
      var ds := [Err("Error reading rule", "Could not read rule, unexpected error: " + r.err.value)];
      assert ds[0].severity == Error;
      Outcome(ds, call, None)
    else Outcome([], call, None)
  }

  /** Update: the same criteria check and request as Create, a reported call error, and no state written. */
  function Update(org: string, p: AuthPlan, r: CallResult): (o: Outcome<AuthRequest, AuthPlan>)
    ensures o.state.None?
    ensures o.call.Some? && o.call.value.id == Some(ValueString(p.uuid))
    ensures o.call.value.request == Some(BuildRequest(WithDefaultUrl(p)))
    ensures HasError(o.diags) <==> p.criteria.Missing() || r.err.Some?
  {
    var p' := WithDefaultUrl(p);
    var pre := CriteriaCheck(p.criteria);
    var errs := if r.err.Some? then [Err("Error updating rule", "Could not update rule, unexpected error: " + r.err.value)] else [];
    var ds := pre + errs;
    assert HasError(ds) <==> HasError(pre) || r.err.Some? by {
      if r.err.Some? { assert ds[|ds| - 1].severity == Error; }
      if HasError(pre) { assert pre[0].severity == Error && ds[0] == pre[0]; }
    }
    Outcome(ds, Some(Call(org, ProjectOf(p'), Some(ValueString(p'.uuid)), Some(BuildRequest(p')))), None)
  }

  /** Create and Update send the same request for the same plan. */
  lemma UpdateSendsCreateRequest(org: string, p: AuthPlan, r: RulesResponse, u: CallResult)
    ensures Update(org, p, u).call.value.request == Create(org, p, r).call.value.request
  {
  }

  function Delete(org: string, s: AuthPlan, r: CallResult): (o: Outcome<(), AuthPlan>)
    ensures o.state.None?
    ensures s.project.Null? <==> o.call.None?
    ensures s.project.Null? ==> o.diags == [Err("Error deleting rule", "Invalid state: project machine name is unknown.")]
    ensures o.call.Some? ==> (HasError(o.diags) <==> r.err.Some?)
    ensures o.call.Some? && r.err.Some? ==> o.diags == [Err("Error deleting rule", "Could not delete rule, unexpected error: " + r.err.value)]
  {
    var o := DeleteIfProject(org, s, r, "Error deleting rule", "Error deleting rule", "Could not delete rule, unexpected error: ");
    assert s.project.Null? ==> o.diags[0].severity == Error;
    o
  }
}

=== FILE: rule_custom_response.dfy ===
/**
 The custom-response rule: a fixed body and status code served for the
 selected requests.
 */
module RuleCustomResponse {
  import opened Values
  import opened Diagnostics
  import opened RuleFilters
  import opened Selection
  import opened Api
  import opened LegacyRule

  datatype CustomFields = CustomFields(statusCode: Tf<int>, body: Tf<string>)

  type CustomPlan = RulePlan<CustomFields>

  datatype CustomBehaviour = CustomBehaviour(body: string, statusCode: int)

  type CustomRequest = RuleRequest<CustomBehaviour>

  /** The body is copied and the status code narrowed to int32, in Create and Update alike. */
  function Behaviour(f: CustomFields): (b: CustomBehaviour)
    ensures b.body == ValueString(f.body)
    ensures IsInt32(b.statusCode)
    ensures IsInt32(ValueInt64(f.statusCode)) ==> b.statusCode == ValueInt64(f.statusCode)
    // an out-of-range code wraps around as Go's int32 conversion does
    ensures b.statusCode == ToInt32(ValueInt64(f.statusCode))
  {
    CustomBehaviour(ValueString(f.body), ToInt32(ValueInt64(f.statusCode)))
  }

  /** Create's request, from a plan whose url default has been applied: a null flag selects "any", a known one its list. */
  function CreateRequest(p: CustomPlan): (q: CustomRequest)
    ensures forall d: Dimension :: Interpret(d, q.filters.Of(d)) == Intended(p.criteria.Of(d))
    ensures q.url == ValueString(p.url) && q.disabled.Some?
    ensures q.name == ValueString(p.name) && q.domain == ValueString(p.domain) && q.disabled == Some(ValueBool(p.disabled))
    ensures q.behaviour == Behaviour(p.fields)
  {
    var q := RuleRequest(ValueString(p.name), Some(ValueBool(p.disabled)), ValueString(p.domain), ValueString(p.url),
                         EachDimension((d, c) => AnyOrList(c), p.criteria), Behaviour(p.fields));
    forall d: Dimension ensures Interpret(d, q.filters.Of(d)) == Intended(p.criteria.Of(d)) {
      AnyOrListReadsBack(d, p.criteria.Of(d));
    }
    q
  }

  /** Update's request: the lists only, with no "any" for a null flag, and no url default. */
  function UpdateRequest(p: CustomPlan): (q: CustomRequest)
    ensures forall d: Dimension :: q.filters.Of(d).mode.None?
    ensures forall d: Dimension :: Interpret(d, q.filters.Of(d)) ==
              if p.criteria.Of(d).includes.Null? then Unspecified else Intended(p.criteria.Of(d))
    ensures q.url == ValueString(p.url) && q.disabled.Some?
    ensures q.name == ValueString(p.name) && q.domain == ValueString(p.domain) && q.disabled == Some(ValueBool(p.disabled))
    ensures q.behaviour == Behaviour(p.fields)
  {
    var q := RuleRequest(ValueString(p.name), Some(ValueBool(p.disabled)), ValueString(p.domain), ValueString(p.url),
                         EachDimension((d, c) => ListOnly(c), p.criteria), Behaviour(p.fields));
    forall d: Dimension ensures Interpret(d, q.filters.Of(d)) ==
              if p.criteria.Of(d).includes.Null? then Unspecified else Intended(p.criteria.Of(d)) {
      ListOnlyReadsBack(d, p.criteria.Of(d));
    }
    q
  }

  /**
   For one plan, Create and Update send different selections exactly where
   an include flag is null: Create says "any", Update says nothing.
   */
  lemma UpdateDropsAnyDefault(p: CustomPlan, d: Dimension)
    ensures CreateRequest(p).filters.Of(d) != UpdateRequest(p).filters.Of(d) <==> p.criteria.Of(d).includes.Null?
  {
  }

  /** Create: the url default, the request, and the create ladder. */
  function Create(org: string, p: CustomPlan, r: RulesResponse): (o: Outcome<CustomRequest, CustomPlan>)
    ensures o.call.Some? && o.call.value.request == Some(CreateRequest(WithDefaultUrl(p)))
    ensures p.url.Null? ==> o.call.value.request.value.url == Wildcard
    ensures o.state.Some? <==> r.status == StatusOK && r.err.None? && |r.uuids| > 0
    ensures o.state.Some? ==> o.state.value == WithDefaultUrl(p).(uuid := Known(r.uuids[0]))
    ensures r.status == StatusForbidden ==> o.diags == [Err("Error create rule", ForbiddenDetail)]
  {
    var p' := WithDefaultUrl(p);
    CreateWithLadder(org, p', CreateRequest(p'), r)
  }

  function Read(org: string, s: CustomPlan, r: RulesResponse): (o: Outcome<CustomRequest, CustomPlan>)
    ensures s.uuid.Null? ==> o.call.None? && o.state == Some(s) && Quiet(o.diags)
    ensures !s.uuid.Null? ==> o.call.Some? && o.call.value.request.None?
    ensures !s.uuid.Null? ==> (o.state.Some? <==> r.status == StatusOK && |r.uuids| > 0)
    ensures o.state.Some? && !s.uuid.Null? ==> o.state.value == s.(uuid := Known(r.uuids[0]))
    ensures !s.uuid.Null? && r.err.Some? ==> |o.diags| >= 1 && o.diags[0] == Err("Error reading header rule", "Could not read rule, unexpected error: " + r.err.value)
    ensures !s.uuid.Null? && r.status == StatusOK && |r.uuids| == 0 ==>
              |o.diags| >= 1 && o.diags[|o.diags| - 1] == Err("Unkonwn UUID", "Could not load rule definition for " + ValueString(s.uuid))
  {
    Refresh(org, s, None, r, "Error reading header rule", "Could not read rule, unexpected error: ", " ")
  }

  function Update(org: string, p: CustomPlan, r: RulesResponse): (o: Outcome<CustomRequest, CustomPlan>)
    ensures p.uuid.Null? ==> o.call.None? && o.state == Some(p) && Quiet(o.diags)
    ensures !p.uuid.Null? ==> o.call.Some? && o.call.value.request == Some(UpdateRequest(p))
    ensures !p.uuid.Null? ==> (o.state.Some? <==> r.status == StatusOK && |r.uuids| > 0)
    ensures o.state.Some? && !p.uuid.Null? ==> o.state.value == p.(uuid := Known(r.uuids[0]))
    ensures !p.uuid.Null? && r.err.Some? ==> |o.diags| >= 1 && o.diags[0] == Err("Error updating rule", "Could not update rule, unexpected error: " + r.err.value)
    ensures !p.uuid.Null? && r.status == StatusOK && |r.uuids| == 0 ==>
              |o.diags| >= 1 && o.diags[|o.diags| - 1] == Err("Unkonwn UUID", "Could not load rule definition for" + ValueString(p.uuid))
  {
    Refresh(org, p, Some(UpdateRequest(p)), r, "Error updating rule", "Could not update rule, unexpected error: ", "")
  }

  function Delete(org: string, s: CustomPlan, r: CallResult): (o: Outcome<(), CustomPlan>)
    ensures o.state.None?
    ensures s.project.Null? <==> o.call.None?
    ensures s.project.Null? ==> o.diags == [Err("Error Deleting Quant project", "Invalid state: project machine name is unknown.")]
    ensures o.call.Some? ==> (HasError(o.diags) <==> r.err.Some?)
    ensures o.call.Some? && r.err.Some? ==> o.diags == [Err("Error Deleting rule ", "Could not delete rule, unexpected error: " + r.err.value)]
  {
    var o := DeleteIfProject(org, s, r, "Error Deleting Quant project", "Error Deleting rule ", "Could not delete rule, unexpected error: ");
    assert s.project.Null? ==> o.diags[0].severity == Error;
    o
  }
}

=== FILE: rule_header.dfy ===
/**
 The newer header rule, which gives the mode strings directly. Three
 defects are kept as written beside their corrections: the filter lists are
 chosen by comparing pointers to fresh strings, so no list is ever copied;
 the url list is read into a non-pointer target, so it is never copied; and
 the uuid guard tests for null twice, so an unknown uuid passes.
 */
module RuleHeader {
  import opened Values
  import opened Diagnostics
  import opened RuleFilters
  import opened Selection
  import opened Api

  datatype HeaderRule = HeaderRule(
    organization: Tf<string>,
    project: Tf<string>,
    uuid: Tf<string>,
    countryMode: Tf<string>,
    countryIs: seq<string>,
    countryIsNot: seq<string>,
    methodMode: Tf<string>,
    methodIs: seq<string>,
    methodIsNot: seq<string>,
    ipMode: Tf<string>,
    ipIs: seq<string>,
    ipIsNot: seq<string>,
    url: seq<string>,
    domain: Tf<string>,
    onlyWithCookie: Tf<string>,
    disabled: Tf<bool>)
  {
    function Mode(d: Dimension): Tf<string> {
      match d
      case Country => countryMode
      case Method => methodMode
      case Ip => ipMode
    }

    function IsList(d: Dimension): seq<string> {
      match d
      case Country => countryIs
      case Method => methodIs
      case Ip => ipIs
    }

    function IsNotList(d: Dimension): seq<string> {
      match d
      case Country => countryIsNot
      case Method => methodIsNot
      case Ip => ipIsNot
    }
  }

  /** The request; `url` is None when the operation never assigns it. */
  datatype HeaderRuleRequest = HeaderRuleRequest(
    filters: Filters,
    url: Option<seq<string>>,
    domain: Option<string>,
    onlyWithCookie: Option<string>,
    disabled: Option<bool>,
    headers: Option<map<string, string>>)

  /** The reply of the header-rule endpoints: the client's error and the returned uuid ("" when absent). */
  datatype HeaderReply = HeaderReply(err: Option<string>, uuid: string)

  /**
   What the two object conversions of the header block report, and the
   header map the second one fills in.
   */
  datatype Conversion = Conversion(objectDiags: seq<Diag>, asDiags: seq<Diag>, headers: map<string, string>)

  /** Country admits its own three modes; method and ip admit any of the seven valid modes. */
  function ModeAccepted(d: Dimension, s: string): (ok: bool)
    // country admits exactly its own modes; method and ip admit every dimension's
    ensures d == Country ==> (ok <==> IsModeOf(Country, s))
    ensures d != Country ==> (ok <==> exists e: Dimension :: IsModeOf(e, s))
  {
    if d == Country then
      assert GetFilterIs(Name(Country)) == "country_is" && GetFilterIsNot(Name(Country)) == "country_is_not";
      s == "country_is" || s == "country_is_not" || s == "any"
    else
      IsValidRuleFilterByDimension(s);
      IsValidRuleFilter(s)
  }

  function InvalidModeDiag(d: Dimension): Diag {
    match d
    case Country => AttrErr("country", "Invalid string value for 'country'", "Country must equal one of the following: country_is, country_is_not, any.")
    case Method => AttrErr("method", "Invalid string value for 'method'", "Method must equal one of the following: country_is, country_is_not, any.")
    case Ip => AttrErr("ip", "Invalid string value for 'method'", "Ip must equal one of the following: country_is, country_is_not, any.")
  }

  /** Every dimension accepts its own "is" and "is not" modes. */
  lemma OwnModesAccepted(d: Dimension)
    ensures ModeAccepted(d, GetFilterIs(Name(d))) && ModeAccepted(d, GetFilterIsNot(Name(d)))
  {
    match d
    case Country =>
      assert GetFilterIs(Name(d)) == "country_is";
      assert GetFilterIsNot(Name(d)) == "country_is_not";
    case Method =>
      assert GetFilterIs(Name(d)) == "method_is" && IsValidRuleFilter("method_is");
      assert GetFilterIsNot(Name(d)) == "method_is_not" && IsValidRuleFilter("method_is_not");
    case Ip =>
      assert GetFilterIs(Name(d)) == "ip_is" && IsValidRuleFilter("ip_is");
      assert GetFilterIsNot(Name(d)) == "ip_is_not" && IsValidRuleFilter("ip_is_not");
  }

  datatype FilterResult = FilterResult(filter: FilterReq, diags: seq<Diag>)

  /**
   One dimension as written: a null mode becomes "any"; a refused mode is an
   attribute error and leaves the dimension unset; an accepted mode is copied,
   and the list switch, comparing a pointer with a fresh allocation, copies
   nothing.
   */
  function SetFilterAsWritten(d: Dimension, rule: HeaderRule): (res: FilterResult)
    ensures rule.Mode(d).Null? ==> res == FilterResult(FilterReq(Some(GetRuleAny()), None, None), [])
    ensures !rule.Mode(d).Null? && !ModeAccepted(d, ValueString(rule.Mode(d))) ==> res == FilterResult(Unset, [InvalidModeDiag(d)])
    // an accepted mode, whichever dimension's it names, is copied verbatim and reported by nothing
    ensures !rule.Mode(d).Null? && ModeAccepted(d, ValueString(rule.Mode(d))) ==>
              res == FilterResult(FilterReq(Some(ValueString(rule.Mode(d))), None, None), [])
    ensures res.filter.isList.None? && res.filter.isNotList.None?
  {
    var m := rule.Mode(d);
    if m.Null? then FilterResult(FilterReq(Some(GetRuleAny()), None, None), [])
    else if !ModeAccepted(d, ValueString(m)) then FilterResult(Unset, [InvalidModeDiag(d)])
    else FilterResult(FilterReq(ValueStringPointer(m), None, None), [])
  }

  /** As written, an "is" mode reaches the API with no list at all, so it reads as selecting nothing. */
  lemma AsWrittenIsModeSelectsNothing(d: Dimension, rule: HeaderRule)
    requires rule.Mode(d) == Known(GetFilterIs(Name(d)))
    ensures Interpret(d, SetFilterAsWritten(d, rule).filter) == OnlyThese([])
  {
    ModeStringsDistinct(Name(d), Name(d));
    match d
    case Country => assert GetFilterIs(Name(d)) == "country_is";
    case Method => assert GetFilterIs(Name(d)) == "method_is";
    case Ip => assert GetFilterIs(Name(d)) == "ip_is";
  }

  /** One dimension as intended: the list switch compares the mode's value, so the matching list is copied. */
  function SetFilter(d: Dimension, rule: HeaderRule): (res: FilterResult)
    ensures rule.Mode(d).Null? ==> res == FilterResult(FilterReq(Some(GetRuleAny()), None, None), [])
    ensures !rule.Mode(d).Null? && !ModeAccepted(d, ValueString(rule.Mode(d))) ==> res == FilterResult(Unset, [InvalidModeDiag(d)])
    ensures rule.Mode(d) == Known(GetFilterIs(Name(d))) ==> res.filter.isList == Some(rule.IsList(d)) && res.filter.isNotList.None?
    ensures rule.Mode(d) == Known(GetFilterIsNot(Name(d))) ==> res.filter.isNotList == Some(rule.IsNotList(d)) && res.filter.isList.None?
    ensures res.filter.mode == SetFilterAsWritten(d, rule).filter.mode && res.diags == SetFilterAsWritten(d, rule).diags
  {
    OwnModesAccepted(d);
    var m := rule.Mode(d);
    if m.Null? then FilterResult(FilterReq(Some(GetRuleAny()), None, None), [])
    else if !ModeAccepted(d, ValueString(m)) then FilterResult(Unset, [InvalidModeDiag(d)])
    else
      var v := ValueString(m);
      if v == GetFilterIs(Name(d)) then FilterResult(FilterReq(Some(v), Some(rule.IsList(d)), None), [])
      else if v == GetFilterIsNot(Name(d)) then FilterResult(FilterReq(Some(v), None, Some(rule.IsNotList(d))), [])
      else FilterResult(FilterReq(Some(v), None, None), [])
  }

  /**
   The intended switch reads back as the rule asks for the dimension's own
   modes: null and "any" are no restriction, "is" and "is not" carry their list.
   */
  lemma SetFilterReadsBack(d: Dimension, rule: HeaderRule)
    ensures rule.Mode(d).Null? || rule.Mode(d) == Known(GetRuleAny()) ==> Interpret(d, SetFilter(d, rule).filter) == Anything
    ensures rule.Mode(d) == Known(GetFilterIs(Name(d))) ==> Interpret(d, SetFilter(d, rule).filter) == OnlyThese(rule.IsList(d))
    ensures rule.Mode(d) == Known(GetFilterIsNot(Name(d))) ==> Interpret(d, SetFilter(d, rule).filter) == AllBut(rule.IsNotList(d))
  {
    ModeStringsDistinct(Name(d), Name(d));
    match d
    case Country =>
      assert GetFilterIs(Name(d)) == "country_is";
      assert GetFilterIsNot(Name(d)) == "country_is_not";
    case Method =>
      assert GetFilterIs(Name(d)) == "method_is";
      assert GetFilterIsNot(Name(d)) == "method_is_not";
    case Ip =>
      assert GetFilterIs(Name(d)) == "ip_is";
      assert GetFilterIsNot(Name(d)) == "ip_is_not";
  }

  /** Method and ip accept another dimension's mode without a diagnostic, and the request then reads as conflicting. */
  lemma ForeignModeAccepted(rule: HeaderRule)
    requires rule.methodMode == Known("ip_is")
    ensures SetFilter(Method, rule).diags == []
    ensures SetFilter(Method, rule).filter.mode == Some("ip_is")
    ensures Interpret(Method, SetFilter(Method, rule).filter) == Conflicting
  {
    assert IsValidRuleFilter("ip_is");
    assert GetFilterIs(Name(Method)) == "method_is";
    assert GetFilterIsNot(Name(Method)) == "method_is_not";
  }

  /** The country check refuses the other dimensions' modes. */
  lemma CountryRefusesForeignMode(rule: HeaderRule)
    requires rule.countryMode == Known("method_is")
    ensures SetFilter(Country, rule) == FilterResult(Unset, [InvalidModeDiag(Country)])
  {
  }

  /**
   The url as written: `ElementsAs` into a non-pointer target fails, its
   diagnostics are dropped, and the nil slice it leaves is omitted from the
   request.
   */
  function RequestUrlAsWritten(rule: HeaderRule): (u: Option<seq<string>>)
    ensures u.None?
  {
    None
  }

  /** As written, the rule's urls never reach the request, even when there are some. */
  lemma UrlAsWrittenDropsUrls(rule: HeaderRule)
    ensures RequestUrlAsWritten(rule) != RequestUrl(rule)
  {
  }

  /** The url as intended: the rule's list. */
  function RequestUrl(rule: HeaderRule): (u: Option<seq<string>>)
    ensures u.Some? && u.value == rule.url
  {
    Some(rule.url)
  }

  /**
   The headers as written: the converted map is left in a local variable
   and never attached, so the request carries no headers.
   */
  function RequestHeadersAsWritten(conv: Conversion): (h: Option<map<string, string>>)
    ensures h.None?
  {
    None
  }

  /** The headers as intended: exactly the converted map, key for key. */
  function RequestHeaders(conv: Conversion): (h: Option<map<string, string>>)
    ensures h.Some? && h.value.Keys == conv.headers.Keys
    ensures h.Some? ==> forall k :: k in conv.headers ==> h.value[k] == conv.headers[k]
  {
    Some(conv.headers)
  }

  /**
   As written, a rule whose conversion succeeds still reaches the API with
   no headers, whatever its header block holds; the corrected Create sends
   the converted map.
   */
  lemma HeadersAsWrittenDropsHeaders(clientOrg: string, rule: HeaderRule, conv: Conversion, r: HeaderReply)
    requires Create(clientOrg, rule, conv, r).call.Some?
    ensures RequestHeadersAsWritten(conv) != Create(clientOrg, rule, conv, r).call.value.request.value.headers
    ensures Create(clientOrg, rule, conv, r).call.value.request.value.headers.value == conv.headers
  {
  }

  function FiltersOf(rule: HeaderRule): (f: Filters)
    ensures forall d: Dimension :: f.Of(d) == SetFilter(d, rule).filter
  {
    Filters(SetFilter(Country, rule).filter, SetFilter(Method, rule).filter, SetFilter(Ip, rule).filter)
  }

  /**
   The request Create sends; Update sends the same without assigning a url.
   The filter diagnostics are dropped. A null domain becomes "any". The
   converted header map is attached, as the corrected code does.
   */
  function BuildRequest(rule: HeaderRule, withUrl: bool, conv: Conversion): (q: HeaderRuleRequest)
    ensures forall d: Dimension :: q.filters.Of(d) == SetFilter(d, rule).filter
    ensures q.url.Some? <==> withUrl
    ensures withUrl ==> q.url == RequestUrl(rule)
    ensures rule.domain.Null? ==> q.domain == Some(GetRuleAny())
    ensures rule.domain.Known? ==> q.domain == Some(rule.domain.value)
    ensures !rule.domain.Null? ==> q.domain == Some(ValueString(rule.domain))
    ensures q.onlyWithCookie.None? <==> rule.onlyWithCookie.Null?
    ensures !rule.onlyWithCookie.Null? ==> q.onlyWithCookie == Some(ValueString(rule.onlyWithCookie))
    ensures q.disabled.None? <==> rule.disabled.Null?
    ensures !rule.disabled.Null? ==> q.disabled == Some(ValueBool(rule.disabled))
    ensures q.headers == RequestHeaders(conv)
  {
    HeaderRuleRequest(
      FiltersOf(rule),
      if withUrl then RequestUrl(rule) else None,
      if rule.domain.Null? then Some(GetRuleAny()) else ValueStringPointer(rule.domain),
      ValueStringPointer(rule.onlyWithCookie),
      ValueBoolPointer(rule.disabled),
      RequestHeaders(conv))
  }

  /** An invalid mode never stops the call: the request is built with that dimension left unset. */
  lemma InvalidModeDoesNotStop(clientOrg: string, rule: HeaderRule, conv: Conversion, r: HeaderReply, d: Dimension)
    requires rule.project.Known? && conv.objectDiags == [] && conv.asDiags == []
    requires !rule.Mode(d).Null? && !ModeAccepted(d, ValueString(rule.Mode(d)))
    ensures Create(clientOrg, rule, conv, r).call.Some?
    ensures Create(clientOrg, rule, conv, r).call.value.request.value.filters.Of(d) == Unset
  {
  }

  const ProjectMissing: Diag := AttrErr("project", "Missing rule.project attribute", "To create a rule you must define the project.")

  /** A project that is null or unknown. */
  predicate Absent(v: Tf<string>) { v.Null? || v.Unknown? }

  /**
   Create: a missing project stops it with an attribute error; a failed
   conversion stops it with the conversion's errors; otherwise the call is
   made under the rule's organization (the client's when null), and a
   successful reply sets the uuid. The wrapper stores the rule in every case.
   */
  function Create(clientOrg: string, rule: HeaderRule, conv: Conversion, r: HeaderReply): (o: Outcome<HeaderRuleRequest, HeaderRule>)
    ensures o.state.Some?
    ensures Absent(rule.project) ==> o == Outcome([ProjectMissing], None, Some(rule))
    ensures o.call.Some? <==> !Absent(rule.project) && !HasError(conv.objectDiags) && !HasError(conv.objectDiags + conv.asDiags)
    ensures o.call.Some? ==> o.call.value == Call(OrgFor(clientOrg, rule.organization), rule.project.value, None, Some(BuildRequest(rule, true, conv)))
    ensures o.state.value != rule ==> o.call.Some? && r.err.None? && o.state.value == rule.(uuid := Known(r.uuid))
    // a successful call stores the rule with the returned uuid; a failed one stores it unchanged
    ensures o.call.Some? && r.err.None? ==> o.state == Some(rule.(uuid := Known(r.uuid)))
    ensures o.call.Some? && r.err.Some? ==> o.state == Some(rule) && |o.diags| > 0 && o.diags[|o.diags| - 1] == Err("Unable to create header rule", "Error: " + r.err.value)
    ensures o.call.Some? ==> (HasError(o.diags) <==> r.err.Some?)
  {
    if Absent(rule.project) then Outcome([ProjectMissing], None, Some(rule))
    else if HasError(conv.objectDiags) then Outcome(conv.objectDiags, None, Some(rule))
    else
      var ds := conv.objectDiags + conv.asDiags;
      if HasError(ds) then Outcome(ds, None, Some(rule))
      else
        var call := Some(Call(OrgFor(clientOrg, rule.organization), rule.project.value, None, Some(BuildRequest(rule, true, conv))));
        if r.err.Some? then
          var ds' := ds + [Err("Unable to create header rule", "Error: " + r.err.value)];
          assert ds'[|ds'| - 1].severity == Error;
          Outcome(ds', call, Some(rule))
        else
          assert !HasError(ds);
          Outcome(ds, call, Some(rule.(uuid := Known(r.uuid))))
  }

  const UuidMissing: Diag := AttrErr("uuid", "Missing rule.uuid attribute", "To read rule information, uuid must be provided.")
  const ProjectMissingForRead: Diag := AttrErr("project", "Missing rule.project attribute", "To read rule information, project must be provided.")

  /** The Read, Update and Delete guards as written: the uuid test is `IsNull` twice; both errors collect before one early return. */
  function GuardsAsWritten(rule: HeaderRule): (ds: seq<Diag>)
    ensures HasError(ds) <==> rule.uuid.Null? || Absent(rule.project)
  {
    var a := if rule.uuid.Null? || rule.uuid.Null? then [UuidMissing] else [];
    var b := if Absent(rule.project) then [ProjectMissingForRead] else [];
    assert a != [] ==> (a + b)[0].severity == Error;
    assert b != [] ==> (a + b)[|a + b| - 1].severity == Error;
    a + b
  }

  /** As written, an unknown uuid passes the guard, so the call goes out with an empty id. */
  lemma GuardsAsWrittenPassUnknownUuid(rule: HeaderRule)
    requires rule.uuid.Unknown? && rule.project.Known?
    ensures !HasError(GuardsAsWritten(rule))
    ensures ValueString(rule.uuid) == ""
  {
  }

  /** The guards as intended: a null or unknown uuid and a null or unknown project are each reported, in that order. */
  function Guards(rule: HeaderRule): (ds: seq<Diag>)
    ensures HasError(ds) <==> Absent(rule.uuid) || Absent(rule.project)
    ensures Absent(rule.uuid) && Absent(rule.project) ==> ds == [UuidMissing, ProjectMissingForRead]
  {
    var a := if Absent(rule.uuid) then [UuidMissing] else [];
    var b := if Absent(rule.project) then [ProjectMissingForRead] else [];
    assert a != [] ==> (a + b)[0].severity == Error;
    assert b != [] ==> (a + b)[|a + b| - 1].severity == Error;
    a + b
  }

  /** The two guards differ exactly on an unknown uuid. */
  lemma GuardsDifferOnlyOnUnknownUuid(rule: HeaderRule)
    ensures HasError(Guards(rule)) != HasError(GuardsAsWritten(rule)) <==> rule.uuid.Unknown? && !Absent(rule.project)
  {
  }

  /** Read: the guards, then the call under the rule's organization; success refreshes the uuid. The wrapper stores the rule in every case. */
  function Read(clientOrg: string, rule: HeaderRule, r: HeaderReply): (o: Outcome<HeaderRuleRequest, HeaderRule>)
    ensures o.state.Some?
    ensures o.call.None? <==> Absent(rule.uuid) || Absent(rule.project)
    ensures o.call.Some? ==> o.call.value == Call(OrgFor(clientOrg, rule.organization), rule.project.value, Some(rule.uuid.value), None)
    ensures o.call.Some? && r.err.None? ==> o.state.value == rule.(uuid := Known(r.uuid)) && o.diags == []
    ensures o.call.None? || r.err.Some? ==> o.state.value == rule && HasError(o.diags)
  {
    var g := Guards(rule);
    if HasError(g) then Outcome(g, None, Some(rule))
    else
      var call := Some(Call(OrgFor(clientOrg, rule.organization), rule.project.value, Some(rule.uuid.value), None));
      if r.err.Some? then
        var ds := [Err("Unable to read rule", "Error: " + r.err.value)];
        assert ds[0].severity == Error;
        Outcome(ds, call, Some(rule))
      else Outcome([], call, Some(rule.(uuid := Known(r.uuid))))
  }

  /**
   Update: the guards, then the object conversion (whose errors stop it),
   then the call with the request minus the url; the `As` conversion's
   diagnostics are kept but do not stop it. The rule is stored unchanged.
   */
  function Update(clientOrg: string, rule: HeaderRule, conv: Conversion, r: CallResult): (o: Outcome<HeaderRuleRequest, HeaderRule>)
    ensures o.state == Some(rule)
    ensures o.call.Some? <==> !Absent(rule.uuid) && !Absent(rule.project) && !HasError(conv.objectDiags)
    ensures o.call.Some? ==> o.call.value == Call(OrgFor(clientOrg, rule.organization), rule.project.value, Some(rule.uuid.value), Some(BuildRequest(rule, false, conv)))
    ensures o.call.Some? && r.err.Some? ==> HasError(o.diags)
    ensures o.call.Some? ==> o.call.value.request.value.url.None?
  {
    var g := Guards(rule);
    if HasError(g) then Outcome(g, None, Some(rule))
    else if HasError(conv.objectDiags) then Outcome(conv.objectDiags, None, Some(rule))
    else
      var ds := conv.objectDiags + conv.asDiags;
      var call := Some(Call(OrgFor(clientOrg, rule.organization), rule.project.value, Some(rule.uuid.value), Some(BuildRequest(rule, false, conv))));
      if r.err.Some? then
        var ds' := ds + [Err("Unable to update rule", "Error: " + r.err.value)];
        assert ds'[|ds'| - 1].severity == Error;
        Outcome(ds', call, Some(rule))
      else Outcome(ds, call, Some(rule))
  }

  /** Delete: the guards, then the call; no state is written. */
  function Delete(clientOrg: string, rule: HeaderRule, r: CallResult): (o: Outcome<HeaderRuleRequest, HeaderRule>)
    ensures o.state.None?
    ensures o.call.None? <==> Absent(rule.uuid) || Absent(rule.project)
    ensures o.call.Some? ==> o.call.value == Call(OrgFor(clientOrg, rule.organization), rule.project.value, Some(rule.uuid.value), None)
    ensures o.call.Some? ==> (HasError(o.diags) <==> r.err.Some?)
  {
    var g := Guards(rule);
    if HasError(g) then Outcome(g, None, None)
    else
      var call := Some(Call(OrgFor(clientOrg, rule.organization), rule.project.value, Some(rule.uuid.value), None));
      if r.err.Some? then
        var ds := [Err("Unable to delete rule", "Error: " + r.err.value)];
        assert ds[0].severity == Error;
        Outcome(ds, call, None)
      else Outcome([], call, None)
  }

  /** A non-null organization on the rule overrides the client's in every call. */
  lemma OrganizationOverride(clientOrg: string, rule: HeaderRule, r: HeaderReply, u: CallResult)
    requires rule.organization.Known? && rule.uuid.Known? && rule.project.Known?
    ensures Read(clientOrg, rule, r).call.value.org == rule.organization.value
    ensures Delete(clientOrg, rule, u).call.value.org == rule.organization.value
  {
  }
}

=== FILE: rule_headers.dfy ===
/**
 The headers rule: response headers added for the selected requests.
 */
module RuleHeaders {
  import opened Values
  import opened Diagnostics
  import opened RuleFilters
  import opened Selection
  import opened Api
  import opened LegacyRule

  /** The plan's header map; a null or unknown map has no elements. */
  datatype HeadersFields = HeadersFields(headers: Tf<map<string, Tf<string>>>)

  type HeadersPlan = RulePlan<HeadersFields>

  /** The request's header map holds the plan's element values as they are. */
  type HeadersRequest = RuleRequest<map<string, Tf<string>>>

  /** The map the request carries: one entry per plan element, under the same key. */
  function HeaderEntries(f: HeadersFields): (m: map<string, Tf<string>>)
    ensures f.headers.Known? ==> m.Keys == f.headers.value.Keys
    ensures f.headers.Known? ==> forall k :: k in m ==> m[k] == f.headers.value[k]
    ensures !f.headers.Known? ==> m == map[]
  {
    f.headers.ValueOr(map[])
  }

  function CreateRequest(p: HeadersPlan): (q: HeadersRequest)
    ensures forall d: Dimension :: Interpret(d, q.filters.Of(d)) == Intended(p.criteria.Of(d))
    ensures q.url == ValueString(p.url) && q.behaviour == HeaderEntries(p.fields)
    ensures q.name == ValueString(p.name) && q.domain == ValueString(p.domain) && q.disabled == Some(ValueBool(p.disabled))
  {
    var q := RuleRequest(ValueString(p.name), Some(ValueBool(p.disabled)), ValueString(p.domain), ValueString(p.url),
                         EachDimension((d, c) => AnyOrList(c), p.criteria), HeaderEntries(p.fields));
    forall d: Dimension ensures Interpret(d, q.filters.Of(d)) == Intended(p.criteria.Of(d)) {
      AnyOrListReadsBack(d, p.criteria.Of(d));
    }
    q
  }

  function UpdateRequest(p: HeadersPlan): (q: HeadersRequest)
    ensures forall d: Dimension :: q.filters.Of(d).mode.None?
    ensures forall d: Dimension :: Interpret(d, q.filters.Of(d)) ==
              if p.criteria.Of(d).includes.Null? then Unspecified else Intended(p.criteria.Of(d))
    ensures q.url == ValueString(p.url) && q.behaviour == HeaderEntries(p.fields)
    ensures q.name == ValueString(p.name) && q.domain == ValueString(p.domain) && q.disabled == Some(ValueBool(p.disabled))
  {
    var q := RuleRequest(ValueString(p.name), Some(ValueBool(p.disabled)), ValueString(p.domain), ValueString(p.url),
                         EachDimension((d, c) => ListOnly(c), p.criteria), HeaderEntries(p.fields));
    forall d: Dimension ensures Interpret(d, q.filters.Of(d)) ==
              if p.criteria.Of(d).includes.Null? then Unspecified else Intended(p.criteria.Of(d)) {
      ListOnlyReadsBack(d, p.criteria.Of(d));
    }
    q
  }

  /** Create and Update send the same header map and differ in selection exactly on null include flags. */
  lemma CreateAndUpdateAgreeOnHeaders(p: HeadersPlan, d: Dimension)
    ensures CreateRequest(p).behaviour == UpdateRequest(p).behaviour
    ensures CreateRequest(p).filters.Of(d) != UpdateRequest(p).filters.Of(d) <==> p.criteria.Of(d).includes.Null?
  {
  }

  function Create(org: string, p: HeadersPlan, r: RulesResponse): (o: Outcome<HeadersRequest, HeadersPlan>)
    ensures o.call.Some? && o.call.value.request == Some(CreateRequest(WithDefaultUrl(p)))
    ensures p.url.Null? ==> o.call.value.request.value.url == Wildcard
    ensures o.state.Some? <==> r.status == StatusOK && r.err.None? && |r.uuids| > 0
    ensures o.state.Some? ==> o.state.value == WithDefaultUrl(p).(uuid := Known(r.uuids[0]))
    ensures r.status != StatusOK ==> HasError(o.diags)
  {
    var p' := WithDefaultUrl(p);
    var o := CreateWithLadder(org, p', CreateRequest(p'), r);
    assert r.status != StatusOK ==> o.diags[0].severity == Error;
    o
  }

  function Read(org: string, s: HeadersPlan, r: RulesResponse): (o: Outcome<HeadersRequest, HeadersPlan>)
    ensures s.uuid.Null? ==> o.call.None? && o.state == Some(s) && Quiet(o.diags)
    ensures !s.uuid.Null? ==> o.call.Some? && o.call.value.request.None?
    ensures !s.uuid.Null? ==> (o.state.Some? <==> r.status == StatusOK && |r.uuids| > 0)
    ensures o.state.Some? && !s.uuid.Null? ==> o.state.value == s.(uuid := Known(r.uuids[0]))
    ensures !s.uuid.Null? && r.err.Some? ==> |o.diags| >= 1 && o.diags[0] == Err("Error reading header rule", "Could not read rule, unexpected error: " + r.err.value)
    ensures !s.uuid.Null? && r.status == StatusOK && |r.uuids| == 0 ==>
              |o.diags| >= 1 && o.diags[|o.diags| - 1] == Err("Unkonwn UUID", "Could not load rule definition for" + ValueString(s.uuid))
  {
    Refresh(org, s, None, r, "Error reading header rule", "Could not read rule, unexpected error: ", "")
  }

  function Update(org: string, p: HeadersPlan, r: RulesResponse): (o: Outcome<HeadersRequest, HeadersPlan>)
    ensures p.uuid.Null? ==> o.call.None? && o.state == Some(p) && Quiet(o.diags)
    ensures !p.uuid.Null? ==> o.call.Some? && o.call.value.request == Some(UpdateRequest(p))
    ensures !p.uuid.Null? ==> (o.state.Some? <==> r.status == StatusOK && |r.uuids| > 0)
    ensures o.state.Some? && !p.uuid.Null? ==> o.state.value == p.(uuid := Known(r.uuids[0]))
    ensures !p.uuid.Null? && r.err.Some? ==> |o.diags| >= 1 && o.diags[0] == Err("Error updating rule", "Could not update rule, unexpected error: " + r.err.value)
    ensures !p.uuid.Null? && r.status == StatusOK && |r.uuids| == 0 ==>
              |o.diags| >= 1 && o.diags[|o.diags| - 1] == Err("Unkonwn UUID", "Could not load rule definition for" + ValueString(p.uuid))
  {
    Refresh(org, p, Some(UpdateRequest(p)), r, "Error updating rule", "Could not update rule, unexpected error: ", "")
  }

  function Delete(org: string, s: HeadersPlan, r: CallResult): (o: Outcome<(), HeadersPlan>)
    ensures o.state.None?
    ensures o.call.None? <==> s.project.Null? || s.uuid.Null?
    ensures o.call.None? ==> !HasError(o.diags) && |o.diags| == 1
    ensures s.project.Null? ==> o.diags == [Warn("Unable to delete rule", "Invalid state: project machine name is unknown.")]
    ensures o.call.Some? ==> (HasError(o.diags) <==> r.err.Some?)
    ensures o.call.Some? && r.err.Some? ==> o.diags == [Err("Error Deleting rule ", "Could not delete rule, unexpected error: " + r.err.value)]
  {
    var o := DeleteIfIdentified(org, s, r);
    assert o.call.None? ==> o.diags[0].severity == Warning;
    o
  }
}

=== FILE: rule_import.dfy ===
/**
 The import id of a rule: "<project>/<uuid>", split on "/" as Go's
 `strings.Split` does, with the uuid checked against the textual form of
 section 3 of RFC 4122 (8-4-4-4-12 hex digits in either case), version
 nibble 1 to 5 (section 4.1.3) and variant nibble 8, 9, a or b
 (section 4.1.1).
 */
module RuleImport {
  import opened Values

  const Slash: char := '/'

  /** `strings.Split(s, "/")`: the maximal slash-free runs, so always one more part than slashes. */
  function Split(s: string): (parts: seq<string>)
    ensures |parts| >= 1
  {
    if s == [] then [""]
    else
      var rest := Split(s[1..]);
      if s[0] == Slash then [""] + rest
      else [[s[0]] + rest[0]] + rest[1..]
  }

  function CountSlashes(s: string): nat {
    if s == [] then 0 else (if s[0] == Slash then 1 else 0) + CountSlashes(s[1..])
  }

  /** The parts joined back with "/". */
  function Join(parts: seq<string>): string
    requires |parts| >= 1
  {
    if |parts| == 1 then parts[0] else parts[0] + [Slash] + Join(parts[1..])
  }

  lemma {:induction false} SplitLength(s: string)
    ensures |Split(s)| == CountSlashes(s) + 1
  {
    if s != [] {
      SplitLength(s[1..]);
    }
  }

  lemma {:induction false} SplitJoin(s: string)
    ensures Join(Split(s)) == s
  {
    if s != [] {
      SplitJoin(s[1..]);
      var rest := Split(s[1..]);
      if s[0] == Slash {
        assert Split(s) == [""] + rest;
        assert s == [s[0]] + s[1..];
      } else {
        var parts := Split(s);
        assert parts[1..] == rest[1..];
        if |rest| == 1 {
          assert Join(parts) == [s[0]] + rest[0];
        } else {
          assert Join(rest) == rest[0] + [Slash] + Join(rest[1..]);
          assert Join(parts) == [s[0]] + rest[0] + [Slash] + Join(rest[1..]);
        }
        assert s == [s[0]] + s[1..];
      }
    }
  }

  lemma {:induction false} SlashFreeSplit(s: string)
    requires Slash !in s
    ensures Split(s) == [s]
  {
    if s != [] {
      SlashFreeSplit(s[1..]);
      assert [s[0]] + s[1..] == s;
    }
  }

  /** The split of p + "/" + u for slash-free p and u is [p, u]. */
  lemma {:induction false} SplitTwo(p: string, u: string)
    requires Slash !in p && Slash !in u
    ensures Split(p + [Slash] + u) == [p, u]
  {
    if p == [] {
      assert p + [Slash] + u == [Slash] + u;
      SlashFreeSplit(u);
    } else {
      SplitTwo(p[1..], u);
      assert (p + [Slash] + u)[1..] == p[1..] + [Slash] + u;
      assert [p[0]] + p[1..] == p;
    }
  }

  predicate IsHex(c: char) {
    ('0' <= c <= '9') || ('a' <= c <= 'f') || ('A' <= c <= 'F')
  }

  predicate HexRun(u: string, lo: nat, hi: nat)
    requires lo <= hi <= |u|
  {
    forall i :: lo <= i < hi ==> IsHex(u[i])
  }

  /**
   The anchored pattern
   hex{8} "-" hex{4} "-" [1-5] hex{3} "-" [89abAB] hex{3} "-" hex{12}.
   */
  function IsUuid(u: string): (ok: bool)
    ensures ok ==> |u| == 36 && forall i :: 0 <= i < |u| ==> u[i] != Slash
  {
    && |u| == 36
    && HexRun(u, 0, 8) && u[8] == '-'
    && HexRun(u, 9, 13) && u[13] == '-'
    && '1' <= u[14] <= '5' && HexRun(u, 15, 18) && u[18] == '-'
    && u[19] in "89abAB" && HexRun(u, 20, 23) && u[23] == '-'
    && HexRun(u, 24, 36)
  }

  lemma UuidSlashFree(u: string)
    requires IsUuid(u)
    ensures Slash !in u
  {
    forall i | 0 <= i < |u| ensures u[i] != Slash {
      if i < 8 { assert HexRun(u, 0, 8); }
      else if 8 < i < 13 { assert HexRun(u, 9, 13); }
      else if 14 < i < 18 { assert HexRun(u, 15, 18); }
      else if 19 < i < 23 { assert HexRun(u, 20, 23); }
      else if 23 < i { assert HexRun(u, 24, 36); }
    }
  }

  const PatternError: string := "The ID must follow the pattern project/uuid to import"
  const UuidError: string := "Invalid UUID format"

  /** The project and uuid components (null on failure) and the error, if any. */
  datatype ImportId = ImportId(project: Tf<string>, uuid: Tf<string>, err: Option<string>)

  function GetRuleImportId(s: string): (r: ImportId)
    // a token without exactly one slash is refused with the pattern error
    ensures CountSlashes(s) != 1 ==> r == ImportId(Null, Null, Some(PatternError))
    // both failure paths leave both components null
    ensures r.err.Some? ==> r.project == Null && r.uuid == Null
    // success returns the two segments untouched, and they rebuild the token
    ensures r.err.None? <==> CountSlashes(s) == 1 && r.uuid.Known? && IsUuid(r.uuid.value)
    ensures r.err.None? ==> r.project.Known? && r.uuid.Known? &&
                            s == r.project.value + [Slash] + r.uuid.value &&
                            Slash !in r.project.value
    ensures r.err == Some(UuidError) ==> CountSlashes(s) == 1
    // a token with one slash is refused only for its uuid segment, and then with the uuid error
    ensures CountSlashes(s) == 1 ==> |Split(s)| == 2
    ensures CountSlashes(s) == 1 && !IsUuid(Split(s)[1]) ==> r == ImportId(Null, Null, Some(UuidError))
  {
    var parts := Split(s);
    SplitLength(s);
    if |parts| != 2 then ImportId(Null, Null, Some(PatternError))
    else if !IsUuid(parts[1]) then ImportId(Null, Null, Some(UuidError))
    else
      SplitJoin(s);
      SplitNoSlash(s);
      ImportId(Known(parts[0]), Known(parts[1]), None)
  }

  lemma {:induction false} SplitNoSlash(s: string)
    ensures forall i :: 0 <= i < |Split(s)| ==> Slash !in Split(s)[i]
  {
    if s != [] {
      SplitNoSlash(s[1..]);
      var rest := Split(s[1..]);
      if s[0] != Slash {
        assert Slash !in rest[0];
        assert Slash !in [s[0]] + rest[0];
      }
    }
  }

  /** Round trip: a slash-free project and a valid uuid come back unchanged. */
  lemma ImportRoundTrip(p: string, u: string)
    requires Slash !in p && IsUuid(u)
    ensures GetRuleImportId(p + [Slash] + u) == ImportId(Known(p), Known(u), None)
  {
    UuidSlashFree(u);
    SplitTwo(p, u);
  }

  /** The project segment is never checked: an empty one is accepted. */
  lemma EmptyProjectAccepted(u: string)
    requires IsUuid(u)
    ensures GetRuleImportId([Slash] + u) == ImportId(Known(""), Known(u), None)
  {
    ImportRoundTrip("", u);
    assert "" + [Slash] + u == [Slash] + u;
  }

  /** A second slash inside the uuid segment is refused with the pattern error, not the uuid error. */
  lemma ExtraSlashRefused(p: string, u: string, tail: string)
    ensures GetRuleImportId(p + [Slash] + u + [Slash] + tail).err == Some(PatternError)
  {
    var t := p + [Slash] + u + [Slash] + tail;
    var t3 := [Slash] + tail;
    var t2 := u + t3;
    var t1 := [Slash] + t2;
    assert t == p + t1;
    CountAppend(p, t1);
    CountAppend([Slash], t2);
    CountAppend(u, t3);
    CountAppend([Slash], tail);
    assert CountSlashes([Slash]) == 1;
    assert CountSlashes(t) >= 2;
  }

  lemma {:induction false} CountAppend(a: string, b: string)
    ensures CountSlashes(a + b) == CountSlashes(a) + CountSlashes(b)
  {
    if a == [] {
      assert a + b == b;
    } else {
      CountAppend(a[1..], b);
      assert (a + b)[0] == a[0];
      assert (a + b)[1..] == a[1..] + b;
    }
  }

  /** Version nibble 4 but variant nibble 7. */
  const ExampleBadVariant: string := "3fa85f64-5717-4562-73fc-2c963f66afa6"

  /** The uuid with its hex letters a-f written in upper case. */
  function UpperHex(u: string): (v: string)
    ensures |v| == |u|
    ensures forall i :: 0 <= i < |u| && !('a' <= u[i] <= 'f') ==> v[i] == u[i]
    ensures forall i :: 0 <= i < |u| && 'a' <= u[i] <= 'f' ==> 'A' <= v[i] <= 'F'
  {
    seq(|u|, i requires 0 <= i < |u| => if 'a' <= u[i] <= 'f' then (u[i] as int - 32) as char else u[i])
  }

  /**
   Upper-case hex digits are accepted and kept as they are, without case
   folding: any valid uuid with its letters upper-cased still parses, and
   comes back in upper case.
   */
  lemma UpperCaseAccepted(p: string, u: string)
    requires Slash !in p && IsUuid(u)
    ensures IsUuid(UpperHex(u))
    ensures GetRuleImportId(p + [Slash] + UpperHex(u)) == ImportId(Known(p), Known(UpperHex(u)), None)
  {
    var v := UpperHex(u);
    forall lo: nat, hi: nat | lo <= hi <= |u| && HexRun(u, lo, hi) ensures HexRun(v, lo, hi) {
      forall i | lo <= i < hi ensures IsHex(v[i]) {
        assert IsHex(u[i]);
      }
    }
    assert HexRun(u, 0, 8) && HexRun(u, 9, 13) && HexRun(u, 15, 18) && HexRun(u, 20, 23) && HexRun(u, 24, 36);
    assert v[19] in "89abAB";
    ImportRoundTrip(p, v);
  }

  /** A variant nibble outside 8, 9, a, b is refused with the uuid error. */
  lemma ImportExampleBadVariant()
    ensures GetRuleImportId("p" + [Slash] + ExampleBadVariant) == ImportId(Null, Null, Some(UuidError))
  {
    var bad := ExampleBadVariant;
    assert bad[19] == '7';
    assert !IsUuid(bad);
    assert forall i :: 0 <= i < |bad| ==> bad[i] != Slash;
    SplitTwo("p", bad);
  }

  /** A token without a slash is refused with the pattern error. */
  lemma ImportExampleNoSlash()
    ensures GetRuleImportId("bad-token") == ImportId(Null, Null, Some(PatternError))
  {
    assert forall i :: 0 <= i < |"bad-token"| ==> "bad-token"[i] != Slash;
    SlashFreeSplit("bad-token");
    SplitLength("bad-token");
  }
}

=== FILE: rule_proxy.dfy ===
/**
 The proxy rule: selection by mode string plus list, the proxy behaviour
 fields with their int32 narrowing, and the WAF sub-request.
 */
module RuleProxy {
  import opened Values
  import opened Diagnostics
  import opened Flatten
  import opened RuleFilters
  import opened Selection
  import opened Api
  import opened LegacyRule

  /** The HTTP:BL block of the WAF settings. */
  datatype Httpbl = Httpbl(enabled: Tf<bool>, blockSuspicious: Tf<bool>, blockHarvester: Tf<bool>,
                           blockSpam: Tf<bool>, blockSearchEngine: Tf<bool>)

  datatype WafConfig = WafConfig(
    mode: Tf<string>,
    paranoiaLevel: Tf<int>,
    allowRules: seq<Tf<int>>,
    allowIp: seq<Tf<string>>,
    blockIp: seq<Tf<string>>,
    blockUa: seq<Tf<string>>,
    blockReferer: seq<Tf<string>>,
    notifySlack: Tf<string>,
    notifySlackHitsRpm: Tf<int>,
    httpbl: Httpbl)

  /** The proxy rule's own plan attributes. */
  datatype ProxyFields = ProxyFields(
    to: Tf<string>,
    host: Tf<string>,
    authUser: Tf<string>,
    authPass: Tf<string>,
    disableSslVerify: Tf<string>,
    cacheLifetime: Tf<int>,
    only404: Tf<bool>,
    stripHeaders: seq<Tf<string>>,
    wafEnabled: Tf<bool>,
    waf: WafConfig)

  type ProxyPlan = RulePlan<ProxyFields>

  datatype WafRequest = WafRequest(
    mode: string,
    paranoiaLevel: int,
    allowRules: seq<int>,
    blockReferer: seq<string>,
    blockUa: seq<string>,
    notifySlack: string,
    notifySlackHitsRpm: int)

  datatype ProxyBehaviour = ProxyBehaviour(
    to: string,
    host: string,
    authUser: string,
    authPass: string,
    cacheLifetime: int,
    onlyProxy404: bool,
    stripHeaders: seq<string>,
    wafEnabled: bool,
    waf: WafRequest)

  type ProxyRequest = RuleRequest<ProxyBehaviour>

  function BuildWaf(w: WafConfig): (q: WafRequest)
    // the three integer fields fit in 32 bits, and values that already fit are sent unchanged
    ensures IsInt32(q.paranoiaLevel) && IsInt32(q.notifySlackHitsRpm)
    ensures forall i :: 0 <= i < |q.allowRules| ==> IsInt32(q.allowRules[i])
    ensures IsInt32(ValueInt64(w.paranoiaLevel)) ==> q.paranoiaLevel == ValueInt64(w.paranoiaLevel)
    ensures IsInt32(ValueInt64(w.notifySlackHitsRpm)) ==> q.notifySlackHitsRpm == ValueInt64(w.notifySlackHitsRpm)
    // out-of-range values wrap around as Go's int32 conversion does
    ensures q.paranoiaLevel == ToInt32(ValueInt64(w.paranoiaLevel))
    ensures q.notifySlackHitsRpm == ToInt32(ValueInt64(w.notifySlackHitsRpm))
    ensures |q.allowRules| == |w.allowRules| && |q.blockReferer| == |w.blockReferer| && |q.blockUa| == |w.blockUa|
    // the mode, the Slack hook and the lists are copied as planned
    ensures q.mode == ValueString(w.mode) && q.notifySlack == ValueString(w.notifySlack)
    ensures q.allowRules == FlattenToInt32(w.allowRules)
    ensures q.blockReferer == FlattenToStrings(w.blockReferer) && q.blockUa == FlattenToStrings(w.blockUa)
  {
    WafRequest(
      ValueString(w.mode),
      ToInt32(ValueInt64(w.paranoiaLevel)),
      FlattenToInt32(w.allowRules),
      FlattenToStrings(w.blockReferer),
      FlattenToStrings(w.blockUa),
      ValueString(w.notifySlack),
      ToInt32(ValueInt64(w.notifySlackHitsRpm)))
  }

  /** The request Create and Update both build from a plan. */
  function BuildRequest(p: ProxyPlan): (q: ProxyRequest)
    ensures q.name == ValueString(p.name) && q.domain == ValueString(p.domain) && q.url == ValueString(p.url)
    ensures q.disabled == Some(ValueBool(p.disabled))
    ensures q.behaviour.to == ValueString(p.fields.to) && q.behaviour.host == ValueString(p.fields.host)
    ensures q.behaviour.authUser == ValueString(p.fields.authUser) && q.behaviour.authPass == ValueString(p.fields.authPass)
    ensures q.behaviour.onlyProxy404 == ValueBool(p.fields.only404) && q.behaviour.wafEnabled == ValueBool(p.fields.wafEnabled)
    ensures q.behaviour.stripHeaders == FlattenToStrings(p.fields.stripHeaders)
    ensures forall d: Dimension :: q.filters.Of(d) == ModeAndList(d, p.criteria.Of(d))
    ensures IsInt32(q.behaviour.cacheLifetime)
    ensures IsInt32(ValueInt64(p.fields.cacheLifetime)) ==> q.behaviour.cacheLifetime == ValueInt64(p.fields.cacheLifetime)
    ensures q.behaviour.cacheLifetime == ToInt32(ValueInt64(p.fields.cacheLifetime))
    ensures q.behaviour.waf == BuildWaf(p.fields.waf)
  {
    var f := p.fields;
    RuleRequest(
      ValueString(p.name),
      Some(ValueBool(p.disabled)),
      ValueString(p.domain),
      ValueString(p.url),
      EachDimension(ModeAndList, p.criteria),
      ProxyBehaviour(
        ValueString(f.to),
        ValueString(f.host),
        ValueString(f.authUser),
        ValueString(f.authPass),
        ToInt32(ValueInt64(f.cacheLifetime)),
        ValueBool(f.only404),
        FlattenToStrings(f.stripHeaders),
        ValueBool(f.wafEnabled),
        BuildWaf(f.waf)))
  }

  /**
   Fields the request never carries: the SSL-verification flag, the WAF ip
   allow and block lists, the HTTP:BL block, the uuid, the project and the
   cookie condition can all change without changing the request.
   */
  lemma RequestIgnoresUnsentFields(p: ProxyPlan, disableSslVerify: Tf<string>, allowIp: seq<Tf<string>>,
                                   blockIp: seq<Tf<string>>, httpbl: Httpbl, uuid: Tf<string>,
                                   project: Tf<string>, cookie: Tf<string>)
    ensures BuildRequest(p) == BuildRequest(p.(
              uuid := uuid, project := project, onlyWithCookie := cookie,
              fields := p.fields.(disableSslVerify := disableSslVerify,
                                  waf := p.fields.waf.(allowIp := allowIp, blockIp := blockIp, httpbl := httpbl))))
  {
  }

  /** Each dimension of the request reads back as the plan asks, except that a null flag is left unspecified. */
  lemma RequestSelectsAsPlanned(p: ProxyPlan, d: Dimension)
    ensures Interpret(d, BuildRequest(p).filters.Of(d)) ==
              if p.criteria.Of(d).includes.Null? then Unspecified else Intended(p.criteria.Of(d))
  {
    ModeAndListReadsBack(d, p.criteria.Of(d));
  }

  const CreateErrSummary: string := "Error creating rule"

  /**
   Create: neither the criteria error nor a call error stops it; the uuid is
   then looked up in the reply, where an empty rule list panics. Otherwise
   the plan is stored with the first returned uuid, whatever was reported.
   */
  function Create(org: string, p: ProxyPlan, r: RulesResponse): (o: Outcome<ProxyRequest, ProxyPlan>)
    ensures o.call == Some(Call(org, ProjectOf(p), None, Some(BuildRequest(p))))
    ensures |CriteriaCheck(p.criteria)| <= |o.diags| && o.diags[..|CriteriaCheck(p.criteria)|] == CriteriaCheck(p.criteria)
    ensures r.err.Some? ==>
              |CriteriaCheck(p.criteria)| < |o.diags| &&
              o.diags[|CriteriaCheck(p.criteria)|] == Err(CreateErrSummary, "Could not create rule, unexpected error: " + r.err.value)
    ensures o.state.Some? <==> |r.uuids| > 0
    ensures o.state.Some? ==> o.state.value == p.(uuid := Known(r.uuids[0]))
    ensures o.state.Some? ==> (HasError(o.diags) <==> p.criteria.Missing() || r.err.Some?)
    ensures o.state.None? ==> Panicked(o.diags)
  {
    var pre := CriteriaCheck(p.criteria);
    var errs := if r.err.Some? then [Err(CreateErrSummary, "Could not create rule, unexpected error: " + r.err.value)] else [];
    var ds := pre + errs;
    assert HasError(ds) <==> HasError(pre) || r.err.Some? by {
      if r.err.Some? { assert ds[|ds| - 1].severity == Error; }
      if HasError(pre) { assert pre[0].severity == Error && ds[0] == pre[0]; }
    }
    var call := Some(Call(org, ProjectOf(p), None, Some(BuildRequest(p))));
    if |r.uuids| == 0 then
      var ds' := ds + [Crash("index out of range")];
      assert ds'[|ds'| - 1].severity == Panic;
      Outcome(ds', call, None)
    else
      Outcome(ds, call, Some(p.(uuid := Known(r.uuids[0]))))
  }

  /** Read looks the rule up but never writes state; an empty reply panics before the error check. */
  function Read(org: string, s: ProxyPlan, r: RulesResponse): (o: Outcome<(), ProxyPlan>)
    ensures o.state.None?
    ensures o.call == Some(Call(org, ProjectOf(s), Some(ValueString(s.uuid)), None))
    ensures |r.uuids| == 0 <==> Panicked(o.diags)
    ensures HasError(o.diags) <==> |r.uuids| > 0 && r.err.Some?
  {
    var call := Some(Call(org, ProjectOf(s), Some(ValueString(s.uuid)), None));
    if |r.uuids| == 0 then
      assert [Crash("index out of range")][0].severity == Panic;
      Outcome([Crash("index out of range")], call, None)
    else if r.err.Some? then
      var ds := [Err("Error updating rule", "Could not update rule, unexpected error: " + r.err.value)];
      assert ds[0].severity == Error;
      Outcome(ds, call, None)
    else Outcome([], call, None)
  }

  /** Update sends the Create request for the same plan, without the criteria check, and stores the plan as it is. */
  function Update(org: string, p: ProxyPlan, r: CallResult): (o: Outcome<ProxyRequest, ProxyPlan>)
    ensures o.call.Some? && o.call.value.id == Some(ValueString(p.uuid))
    ensures o.call.value.request == Some(BuildRequest(p))
    ensures o.state == Some(p)
    ensures HasError(o.diags) <==> r.err.Some?
  {
    var ds := if r.err.Some? then [Err("Error updating rule", "Could not update rule, unexpected error: " + r.err.value)] else [];
    assert r.err.Some? ==> ds[0].severity == Error;
    Outcome(ds, Some(Call(org, ProjectOf(p), Some(ValueString(p.uuid)), Some(BuildRequest(p)))), Some(p))
  }

  lemma UpdateSendsCreateRequest(org: string, p: ProxyPlan, r: RulesResponse, u: CallResult)
    ensures Update(org, p, u).call.value.request == Create(org, p, r).call.value.request
    ensures Update(org, p, u).call.value.project == Create(org, p, r).call.value.project
  {
  }

  function Delete(org: string, s: ProxyPlan, r: CallResult): (o: Outcome<(), ProxyPlan>)
    ensures o.state.None?
    ensures s.project.Null? <==> o.call.None?
    ensures s.project.Null? ==> HasError(o.diags)
    ensures o.call.Some? ==> o.call.value.id == Some(ValueString(s.uuid)) && (HasError(o.diags) <==> r.err.Some?)
    // the messages are the project resource's, as in the source
    ensures s.project.Null? ==> o.diags == [Err("Error Deleting Quant project", "Invalid state: project machine name is unknown.")]
    ensures o.call.Some? && r.err.Some? ==> o.diags == [Err("Error Deleting Quant project", "Could not delete project, unexpected error: " + r.err.value)]
  {
    var o := DeleteIfProject(org, s, r, "Error Deleting Quant project", "Error Deleting Quant project", "Could not delete project, unexpected error: ");
    assert s.project.Null? ==> o.diags[0].severity == Error;
    o
  }
}

=== FILE: rule_redirect.dfy ===
/**
 The redirect rule, with its status-code guard as written (a disjunction
 that every integer satisfies) and as intended (301 or 302 only).
 */
module RuleRedirect {
  import opened Values
  import opened Diagnostics
  import opened RuleFilters
  import opened Selection
  import opened Api
  import opened LegacyRule

  datatype RedirectFields = RedirectFields(to: Tf<string>, statusCode: Tf<int>)

  type RedirectPlan = RulePlan<RedirectFields>

  datatype RedirectBehaviour = RedirectBehaviour(redirectTo: string, redirectCode: int)

  type RedirectRequest = RuleRequest<RedirectBehaviour>

  /** The schema default of `status_code`. */
  const DefaultStatusCode: int := 301

  function Code(p: RedirectPlan): int { ValueInt64(p.fields.statusCode) }

  predicate IsDigit(c: char) { '0' <= c <= '9' }

  /** Go's `%d` of an integer: a minus sign exactly for a negative value, then decimal digits with no leading zero. */
  function FormatInt(n: int): (s: string)
    ensures |s| > 0 && (s[0] == '-' <==> n < 0) && (n < 0 ==> |s| >= 2)
    ensures forall i :: (if n < 0 then 1 else 0) <= i < |s| ==> IsDigit(s[i])
    ensures n != 0 ==> s[if n < 0 then 1 else 0] != '0'
  {
    if n < 0 then "-" + Digits(-n) else Digits(n)
  }

  /** The decimal digits of `n`, most significant first. */
  function Digits(n: nat): (s: string)
    ensures |s| > 0 && forall i :: 0 <= i < |s| ==> IsDigit(s[i])
    ensures n != 0 ==> s[0] != '0'
    ensures n < 10 <==> |s| == 1
    decreases n
  {
    var last := [(48 + n % 10) as char];
    if n < 10 then last else Digits(n / 10) + last
  }

  /** The detail names the refused code as it was given. */
  lemma FormatIntExamples()
    ensures FormatInt(301) == "301" && FormatInt(0) == "0" && FormatInt(-7) == "-7"
  {
  }

  function InvalidCode(c: int): Diag {
    Err("Invalid redirect status code", "Redirect code must be [301, 302] " + FormatInt(c) + " given")
  }

  /** The guard as written: refuse when the code differs from 301 or differs from 302. */
  function StatusGuardAsWritten(c: int): (refuse: bool)
    ensures refuse
  {
    c != 301 || c != 302
  }

  /** The guard as intended: refuse every code but 301 and 302. */
  const RedirectCodes: set<int> := {301, 302}

  function StatusGuard(c: int): (refuse: bool)
    ensures !refuse <==> c in RedirectCodes
    ensures !refuse ==> IsInt32(c)
  {
    c != 301 && c != 302
  }

  /** No integer passes the guard as written: no code differs from neither 301 nor 302. */
  lemma GuardAsWrittenRefusesAll(c: int)
    ensures StatusGuardAsWritten(c)
  {
  }

  /** The intended guard lets exactly the two redirect codes through, the default among them. */
  lemma GuardPassesExactlyRedirectCodes(c: int)
    ensures !StatusGuard(c) <==> c == 301 || c == 302
    ensures !StatusGuard(DefaultStatusCode)
  {
  }

  /**
   Create's request: name, domain, url, target and code, plus "any" for each
   null include flag; never the lists, never the disabled flag.
   */
  function CreateRequest(p: RedirectPlan): (q: RedirectRequest)
    ensures q.name == ValueString(p.name) && q.domain == ValueString(p.domain) && q.url == ValueString(p.url)
    ensures q.disabled.None?
    ensures forall d: Dimension :: Interpret(d, q.filters.Of(d)) == if p.criteria.Of(d).includes.Null? then Anything else Unspecified
    ensures q.behaviour.redirectTo == ValueString(p.fields.to)
    ensures IsInt32(q.behaviour.redirectCode) && (IsInt32(Code(p)) ==> q.behaviour.redirectCode == Code(p))
    ensures q.behaviour.redirectCode == ToInt32(Code(p))
  {
    var q := RuleRequest(ValueString(p.name), None, ValueString(p.domain), ValueString(p.url),
                         EachDimension((d, c) => AnyOnly(c), p.criteria),
                         RedirectBehaviour(ValueString(p.fields.to), ToInt32(Code(p))));
    forall d: Dimension ensures Interpret(d, q.filters.Of(d)) == if p.criteria.Of(d).includes.Null? then Anything else Unspecified {
      AnyOnlyReadsBack(d, p.criteria.Of(d));
    }
    q
  }

  /** Update's request: the lists for known flags, the disabled flag, and the url with no default. */
  function UpdateRequest(p: RedirectPlan): (q: RedirectRequest)
    ensures q.disabled.Some?
    ensures q.name == ValueString(p.name) && q.domain == ValueString(p.domain) && q.url == ValueString(p.url)
    ensures q.disabled == Some(ValueBool(p.disabled))
    ensures forall d: Dimension :: Interpret(d, q.filters.Of(d)) ==
              if p.criteria.Of(d).includes.Null? then Unspecified else Intended(p.criteria.Of(d))
    ensures q.behaviour.redirectTo == ValueString(p.fields.to)
    ensures IsInt32(q.behaviour.redirectCode) && (IsInt32(Code(p)) ==> q.behaviour.redirectCode == Code(p))
    ensures q.behaviour.redirectCode == ToInt32(Code(p))
  {
    var q := RuleRequest(ValueString(p.name), Some(ValueBool(p.disabled)), ValueString(p.domain), ValueString(p.url),
                         EachDimension((d, c) => ListOnly(c), p.criteria),
                         RedirectBehaviour(ValueString(p.fields.to), ToInt32(Code(p))));
    forall d: Dimension ensures Interpret(d, q.filters.Of(d)) ==
              if p.criteria.Of(d).includes.Null? then Unspecified else Intended(p.criteria.Of(d)) {
      ListOnlyReadsBack(d, p.criteria.Of(d));
    }
    q
  }

  /**
   Create past the guard: 403 and any other non-200 stop; a call error is
   reported without stopping, so the uuid is still looked up, and an empty
   rule list panics.
   */
  function CreateAfterGuard(org: string, p: RedirectPlan, r: RulesResponse): (o: Outcome<RedirectRequest, RedirectPlan>)
    ensures o.call == Some(Call(org, ProjectOf(p), None, Some(CreateRequest(p))))
    ensures o.state.Some? <==> r.status == StatusOK && |r.uuids| > 0
    ensures o.state.Some? ==> o.state.value == p.(uuid := Known(r.uuids[0])) && (HasError(o.diags) <==> r.err.Some?)
    ensures o.state.None? ==> HasError(o.diags) || Panicked(o.diags)
  {
    var call := Some(Call(org, ProjectOf(p), None, Some(CreateRequest(p))));
    if r.status == StatusForbidden then
      var ds := [Err("Error create rule", ForbiddenDetail)];
      assert ds[0].severity == Error;
      Outcome(ds, call, None)
    else if r.status != StatusOK then
      var ds := [Err("Error creating rule", "Could not create the rule, unexpected error " + ErrorMessages.ErrorFromApiBody(r.body))];
      assert ds[0].severity == Error;
      Outcome(ds, call, None)
    else
      var ds := if r.err.Some? then [Err("Error create redirect rule", "Could not create rule, unexpected error: " + r.err.value)] else [];
      assert r.err.Some? ==> ds[0].severity == Error;
      if |r.uuids| == 0 then
        var ds' := ds + [Crash("index out of range")];
        assert ds'[|ds'| - 1].severity == Panic;
        Outcome(ds', call, None)
      else Outcome(ds, call, Some(p.(uuid := Known(r.uuids[0]))))
  }

  /** Create as written: the always-true guard stops it before any call. */
  function CreateAsWritten(org: string, p: RedirectPlan, r: RulesResponse): (o: Outcome<RedirectRequest, RedirectPlan>)
    ensures StatusGuardAsWritten(Code(p)) ==> o == Outcome([InvalidCode(Code(p))], None, None)
  {
    var p' := WithDefaultUrl(p);
    if StatusGuardAsWritten(Code(p')) then Outcome([InvalidCode(Code(p'))], None, None)
    else CreateAfterGuard(org, p', r)
  }

  /** Whatever the plan and reply, Create as written reports the code error and never calls the API. */
  lemma CreateAsWrittenNeverCalls(org: string, p: RedirectPlan, r: RulesResponse)
    ensures CreateAsWritten(org, p, r).call.None?
    ensures CreateAsWritten(org, p, r).diags == [InvalidCode(Code(p))]
    ensures CreateAsWritten(org, p, r).state.None?
  {
    GuardAsWrittenRefusesAll(Code(p));
  }

  /** Create as intended: the url default, then the guard, then the call. */
  function Create(org: string, p: RedirectPlan, r: RulesResponse): (o: Outcome<RedirectRequest, RedirectPlan>)
    ensures o.call.Some? <==> Code(p) == 301 || Code(p) == 302
    ensures o.call.None? ==> o.diags == [InvalidCode(Code(p))] && o.state.None?
    ensures o.call.Some? ==> o.call.value.request == Some(CreateRequest(WithDefaultUrl(p)))
    ensures o.state.Some? ==> |r.uuids| > 0 && o.state.value == WithDefaultUrl(p).(uuid := Known(r.uuids[0]))
    // past the guard, Create is exactly the create path for the defaulted plan
    ensures o.call.Some? ==> o == CreateAfterGuard(org, WithDefaultUrl(p), r)
    ensures o.call.Some? ==> (o.state.Some? <==> r.status == StatusOK && |r.uuids| > 0)
  {
    var p' := WithDefaultUrl(p);
    if StatusGuard(Code(p')) then Outcome([InvalidCode(Code(p'))], None, None)
    else CreateAfterGuard(org, p', r)
  }

  /** With the default code, the corrected Create reaches the API and the as-written one does not. */
  lemma DefaultCodeCreates(org: string, p: RedirectPlan, r: RulesResponse)
    requires p.fields.statusCode == Known(DefaultStatusCode)
    ensures Create(org, p, r).call.Some?
    ensures CreateAsWritten(org, p, r).call.None?
  {
    CreateAsWrittenNeverCalls(org, p, r);
  }

  /** Update as written: past the null-uuid warning, the always-true guard stops it; no PATCH is ever sent. */
  function UpdateAsWritten(org: string, p: RedirectPlan, r: RulesResponse): (o: Outcome<RedirectRequest, RedirectPlan>)
    ensures p.uuid.Null? ==> o == Outcome([UuidNullWarning], None, Some(p))
  {
    if p.uuid.Null? then Outcome([UuidNullWarning], None, Some(p))
    else if StatusGuardAsWritten(Code(p)) then Outcome([InvalidCode(Code(p))], None, None)
    else Refresh(org, p, Some(UpdateRequest(p)), r, "Error updating rule", "Could not update rule, unexpected error: ", "")
  }

  lemma UpdateAsWrittenNeverCalls(org: string, p: RedirectPlan, r: RulesResponse)
    ensures UpdateAsWritten(org, p, r).call.None?
    ensures !p.uuid.Null? ==> UpdateAsWritten(org, p, r).diags == [InvalidCode(Code(p))]
  {
    GuardAsWrittenRefusesAll(Code(p));
  }

  /** Update as intended: the guard lets 301 and 302 through to the call and the refresh ladder. */
  function Update(org: string, p: RedirectPlan, r: RulesResponse): (o: Outcome<RedirectRequest, RedirectPlan>)
    ensures p.uuid.Null? ==> o == Outcome([UuidNullWarning], None, Some(p))
    ensures !p.uuid.Null? ==> (o.call.Some? <==> Code(p) == 301 || Code(p) == 302)
    ensures !p.uuid.Null? && o.call.None? ==> o.diags == [InvalidCode(Code(p))] && o.state.None?
    ensures o.call.Some? ==> o.call.value.request == Some(UpdateRequest(p))
    ensures o.call.Some? ==> (o.state.Some? <==> r.status == StatusOK && |r.uuids| > 0)
    ensures o.call.Some? && o.state.Some? ==> o.state.value == p.(uuid := Known(r.uuids[0]))
    ensures o.call.Some? && r.err.Some? ==>
              |o.diags| >= 1 && o.diags[0] == Err("Error updating rule", "Could not update rule, unexpected error: " + r.err.value)
    ensures o.call.Some? && r.status == StatusOK && |r.uuids| == 0 ==>
              |o.diags| >= 1 && o.diags[|o.diags| - 1] == Err("Unkonwn UUID", "Could not load rule definition for" + ValueString(p.uuid))
  {
    if p.uuid.Null? then Outcome([UuidNullWarning], None, Some(p))
    else if StatusGuard(Code(p)) then Outcome([InvalidCode(Code(p))], None, None)
    else Refresh(org, p, Some(UpdateRequest(p)), r, "Error updating rule", "Could not update rule, unexpected error: ", "")
  }

  function Read(org: string, s: RedirectPlan, r: RulesResponse): (o: Outcome<RedirectRequest, RedirectPlan>)
    ensures s.uuid.Null? ==> o.call.None? && o.state == Some(s) && Quiet(o.diags)
    ensures !s.uuid.Null? ==> o.call.Some? && o.call.value.request.None?
    ensures !s.uuid.Null? ==> (o.state.Some? <==> r.status == StatusOK && |r.uuids| > 0)
    ensures o.state.Some? && !s.uuid.Null? ==> o.state.value == s.(uuid := Known(r.uuids[0]))
    ensures !s.uuid.Null? && r.err.Some? ==> |o.diags| >= 1 && o.diags[0] == Err("Error reading header rule", "Could not read rule, unexpected error: " + r.err.value)
    ensures !s.uuid.Null? && r.status == StatusOK && |r.uuids| == 0 ==>
              |o.diags| >= 1 && o.diags[|o.diags| - 1] == Err("Unkonwn UUID", "Could not load rule definition for" + ValueString(s.uuid))
  {
    Refresh(org, s, None, r, "Error reading header rule", "Could not read rule, unexpected error: ", "")
  }

  function Delete(org: string, s: RedirectPlan, r: CallResult): (o: Outcome<(), RedirectPlan>)
    ensures o.state.None?
    ensures o.call.None? <==> s.project.Null? || s.uuid.Null?
    ensures o.call.None? ==> !HasError(o.diags) && |o.diags| == 1
    ensures s.project.Null? ==> o.diags == [Warn("Unable to delete rule", "Invalid state: project machine name is unknown.")]
    ensures o.call.Some? ==> (HasError(o.diags) <==> r.err.Some?)
    ensures o.call.Some? && r.err.Some? ==> o.diags == [Err("Error Deleting rule ", "Could not delete rule, unexpected error: " + r.err.value)]
  {
    var o := DeleteIfIdentified(org, s, r);
    assert o.call.None? ==> o.diags[0].severity == Warning;
    o
  }
}

=== FILE: rule_resource.dfy ===
/**
 The attributes every rule resource shares: organization, project, name,
 the computed identifiers, url and domain lists, the disabled flag, and a
 mode attribute with is/is-not lists for each of the three dimensions.
 */
module RuleSchema {
  import opened Values
  import opened RuleFilters

  datatype AttrType = StringAttr | BoolAttr | StringList

  /** A static default the framework fills in when the attribute is left out. */
  datatype Default = ListDefault(items: seq<string>) | BoolDefault(b: bool)

  /** One schema attribute: its type, who may set it, its default and its one-of validator. */
  datatype Attribute = Attribute(
    kind: AttrType,
    required: bool,
    optional: bool,
    computed: bool,
    default: Option<Default>,
    oneOf: Option<seq<string>>)

  function Plain(kind: AttrType): Attribute { Attribute(kind, false, true, false, None, None) }

  /** A mode attribute restricted by a one-of validator. */
  function ModeAttr(values: seq<string>): Attribute { Attribute(StringAttr, false, true, false, None, Some(values)) }

  /** The domain default: the one-element list ["any"]. */
  function DomainDefault(): seq<string> { [GetRuleAny()] }

  /** The literal one-of lists of the three mode validators. */
  function ModeValidator(d: Dimension): seq<string> {
    match d
    case Method => ["any", "method_is", "method_is_not"]
    case Ip => ["any", "ip_is", "ip_is_not"]
    case Country => ["any", "country_is", "country_is_not"]
  }

  predicate Accepts(d: Dimension, s: string) { s in ModeValidator(d) }

  /** The attribute declared under a name, if any. */
  function RuleBaseAttributes(key: string): (a: Option<Attribute>)
    // name is the only required attribute; the identifiers are computed and cannot be set
    ensures a.Some? && a.value.required <==> key == "name"
    ensures key == "uuid" || key == "rule_id" ==>
              a.Some? && a.value.computed && !a.value.optional && !a.value.required
    // the framework supplies ["any"] for a missing domain and false for a missing disabled flag
    ensures key == "domain" ==> a.Some? && a.value.default == Some(ListDefault(["any"]))
    ensures key == "disabled" ==> a.Some? && a.value.default == Some(BoolDefault(false))
    // only the three mode attributes carry a validator, and each accepts exactly
    // "any" and its own dimension's two modes
    ensures a.Some? && a.value.oneOf.Some? <==> exists d: Dimension :: key == Name(d)
    ensures forall d: Dimension :: key == Name(d) ==>
              a.Some? && a.value.oneOf.Some? && (forall s :: s in a.value.oneOf.value <==> IsModeOf(d, s))
  {
    ValidatorsMatchDimensions();
    match key
    case "organization" => Some(Plain(StringAttr))
    case "project" => Some(Plain(StringAttr))
    case "name" => Some(Attribute(StringAttr, true, false, false, None, None))
    case "uuid" => Some(Attribute(StringAttr, false, false, true, None, None))
    case "rule_id" => Some(Attribute(StringAttr, false, false, true, None, None))
    case "url" => Some(Plain(StringList))
    case "domain" => Some(Attribute(StringList, false, true, true, Some(ListDefault(DomainDefault())), None))
    case "disabled" => Some(Attribute(BoolAttr, false, true, true, Some(BoolDefault(false)), None))
    case "only_with_cookie" => Some(Plain(BoolAttr))
    case "method" => assert Name(Method) == key; Some(ModeAttr(ModeValidator(Method)))
    case "method_is" => Some(Plain(StringList))
    case "method_is_not" => Some(Plain(StringList))
    case "ip" => assert Name(Ip) == key; Some(ModeAttr(ModeValidator(Ip)))
    case "ip_is" => Some(Plain(StringList))
    case "ip_is_not" => Some(Plain(StringList))
    case "country" => assert Name(Country) == key; Some(ModeAttr(ModeValidator(Country)))
    case "country_is" => Some(Plain(StringList))
    case "country_is_not" => Some(Plain(StringList))
    case _ => None
  }

  /** Each literal validator list is exactly "any" plus the dimension's own is/is-not modes. */
  lemma ValidatorsMatchDimensions()
    ensures forall d: Dimension, s :: Accepts(d, s) <==> IsModeOf(d, s)
  {
    forall d: Dimension, s ensures Accepts(d, s) <==> IsModeOf(d, s) {
      match d
      case Country =>
        assert GetFilterIs(Name(d)) == "country_is";
        assert GetFilterIsNot(Name(d)) == "country_is_not";
      case Method =>
        assert GetFilterIs(Name(d)) == "method_is";
        assert GetFilterIsNot(Name(d)) == "method_is_not";
      case Ip =>
        assert GetFilterIs(Name(d)) == "ip_is";
        assert GetFilterIsNot(Name(d)) == "ip_is_not";
    }
  }

  /**
   Every mode a per-dimension validator accepts passes `IsValidRuleFilter`,
   and the converse fails: each validator refuses another dimension's mode.
   */
  lemma ValidatorsStrictlyInsideValidModes(d: Dimension)
    ensures forall s :: Accepts(d, s) ==> IsValidRuleFilter(s)
    ensures exists s :: IsValidRuleFilter(s) && !Accepts(d, s)
  {
    ValidatorsMatchDimensions();
    forall s | Accepts(d, s) ensures IsValidRuleFilter(s) {
      IsValidRuleFilterByDimension(s);
    }
    var other := if d == Country then "ip_is" else "country_is";
    assert IsValidRuleFilter(other);
    assert !Accepts(d, other);
  }

  /** A config-level validator; the shared rule schema defines none. */
  datatype ConfigValidator = ConfigValidator(description: string)

  /** The common config validation applies no checks at all. */
  function RuleBaseConfigValidator(): (vs: seq<ConfigValidator>)
    ensures |vs| == 0
  {
    []
  }
}

=== FILE: rules.dfy ===
/**
 The rule-selection vocabulary: the mode strings the remote API accepts for
 the country, method and ip dimensions ("any", "<dim>_is", "<dim>_is_not")
 and the dimension-blind validity check.
 */
module RuleFilters {

  /** The three selection dimensions a rule can filter on. */
  datatype Dimension = Country | Method | Ip

  function Name(d: Dimension): string {
    match d
    case Country => "country"
    case Method => "method"
    case Ip => "ip"
  }

  /** The "no restriction" mode, one of the valid modes; it is no dimension's "is" or "is not" mode (ModeStringsDistinct). */
  function GetRuleAny(): (s: string)
    ensures s in ValidModes && |s| == 3
  {
    "any"
  }

  /** The "match only these values" mode of a dimension. */
  function GetFilterIs(filter: string): (s: string)
    ensures |s| == |filter| + 3 && s[..|filter|] == filter
  {
    filter + "_is"
  }

  /** The "match anything except these values" mode of a dimension. */
  function GetFilterIsNot(filter: string): (s: string)
    ensures |s| == |filter| + 7 && s[..|filter|] == filter
  {
    filter + "_is_not"
  }

  /** The seven mode strings `IsValidRuleFilter` lists, as a set. */
  const ValidModes: set<string> :=
    {"country_is_not", "method_is_not", "ip_is_not", "country_is", "method_is", "ip_is", "any"}

  function IsValidRuleFilter(s: string): (ok: bool)
    ensures ok <==> s in ValidModes
  {
    match s
    case "country_is_not" => true
    case "method_is_not" => true
    case "ip_is_not" => true
    case "country_is" => true
    case "method_is" => true
    case "ip_is" => true
    case "any" => true
    case _ => false
  }

  /** A mode string that belongs to one particular dimension. */
  predicate IsModeOf(d: Dimension, s: string) {
    s == GetRuleAny() || s == GetFilterIs(Name(d)) || s == GetFilterIsNot(Name(d))
  }

  /**
   The "is" and "is not" modes never coincide, whatever the dimension names,
   and neither is "any": one ends in 's', the other in 't', and "any" is
   shorter than both once the suffix is counted.
   */
  lemma ModeStringsDistinct(f: string, g: string)
    ensures GetFilterIs(f) != GetFilterIsNot(g)
    ensures GetFilterIs(f) != GetRuleAny()
    ensures GetFilterIsNot(f) != GetRuleAny()
  {
    var a, b := GetFilterIs(f), GetFilterIsNot(g);
    assert a[|a| - 1] == 's';
    assert b[|b| - 1] == 't';
    if |f| == 0 {
      assert a == "_is";
    }
  }

  /** The validity check accepts exactly the seven listed strings. */
  lemma IsValidRuleFilterExactly(s: string)
    ensures IsValidRuleFilter(s) <==> s in ValidModes
  {
  }

  /**
   Against an independent description: a string is a valid mode exactly when
   it is "any" or the is/is-not mode of one of the three dimensions.
   */
  lemma IsValidRuleFilterByDimension(s: string)
    ensures IsValidRuleFilter(s) <==> exists d: Dimension :: IsModeOf(d, s)
  {
    assert GetFilterIs(Name(Country)) == "country_is";
    assert GetFilterIsNot(Name(Country)) == "country_is_not";
    assert GetFilterIs(Name(Method)) == "method_is";
    assert GetFilterIsNot(Name(Method)) == "method_is_not";
    assert GetFilterIs(Name(Ip)) == "ip_is";
    assert GetFilterIsNot(Name(Ip)) == "ip_is_not";
    if IsValidRuleFilter(s) {
      if s == "any" {
        assert IsModeOf(Country, s);
      } else if s == "country_is" || s == "country_is_not" {
        assert IsModeOf(Country, s);
      } else if s == "method_is" || s == "method_is_not" {
        assert IsModeOf(Method, s);
      } else {
        assert IsModeOf(Ip, s);
      }
    }
  }

  /** The check ignores the dimension: another dimension's mode passes too. */
  lemma IsValidRuleFilterIgnoresDimension()
    ensures IsValidRuleFilter(GetFilterIs(Name(Country)))
    ensures !IsModeOf(Method, GetFilterIs(Name(Country)))
    ensures IsValidRuleFilter(GetFilterIs(Name(Ip))) && !IsModeOf(Method, GetFilterIs(Name(Ip)))
  {
    assert GetFilterIs(Name(Country)) == "country_is";
    assert GetFilterIs(Name(Ip)) == "ip_is";
    assert GetFilterIs(Name(Method)) == "method_is";
    assert GetFilterIsNot(Name(Method)) == "method_is_not";
  }
}

=== FILE: selection.dfy ===
/**
 Rule selection in the older rule resources: per dimension, an include flag
 plus a value list in the plan, and a mode string plus an is/is-not list in
 the request. Four translators cover the four ways the resources fill a
 request, and `Interpret` reads a request dimension back so that each
 translator can be compared with what the plan asked for.
 */
module Selection {
  import opened Values
  import opened RuleFilters
  import opened Flatten

  /** The include flag and value list a plan gives for one dimension. */
  datatype Criterion = Criterion(includes: Tf<bool>, values: seq<Tf<string>>)

  /** The selection part of a rule plan. */
  datatype Criteria = Criteria(byCountry: Criterion, byMethod: Criterion, byIp: Criterion) {
    function Of(d: Dimension): Criterion {
      match d
      case Country => byCountry
      case Method => byMethod
      case Ip => byIp
    }

    /** No dimension has an include flag at all. */
    predicate Missing() {
      byCountry.includes.Null? && byMethod.includes.Null? && byIp.includes.Null?
    }
  }

  /** One dimension of a rule request; None is a field the request leaves unset. */
  datatype FilterReq = FilterReq(mode: Option<string>, isList: Option<seq<string>>, isNotList: Option<seq<string>>)

  const Unset: FilterReq := FilterReq(None, None, None)

  datatype Filters = Filters(byCountry: FilterReq, byMethod: FilterReq, byIp: FilterReq) {
    function Of(d: Dimension): FilterReq {
      match d
      case Country => byCountry
      case Method => byMethod
      case Ip => byIp
    }
  }

  /** A selection: no restriction, only the listed values, all but the listed values, not said, or self-contradictory. */
  datatype Selects = Anything | OnlyThese(values: seq<string>) | AllBut(values: seq<string>) | Unspecified | Conflicting

  /** What a criterion asks for: a null flag means no restriction, an unknown one decides nothing yet. */
  function Intended(c: Criterion): Selects {
    match c.includes
    case Null => Anything
    case Unknown => Unspecified
    case Known(true) => OnlyThese(FlattenToStrings(c.values))
    case Known(false) => AllBut(FlattenToStrings(c.values))
  }

  function ListOr(l: Option<seq<string>>): seq<string> {
    if l.Some? then l.value else []
  }

  /**
   How a request dimension reads: both lists at once conflict; without a mode
   a lone list speaks for itself; "any" with no list is no restriction; the
   dimension's own is or is-not mode pairs only with its own list; anything
   else conflicts.
   */
  function Interpret(d: Dimension, f: FilterReq): Selects {
    if f.isList.Some? && f.isNotList.Some? then Conflicting
    else match f.mode
      case None =>
        if f.isList.Some? then OnlyThese(f.isList.value)
        else if f.isNotList.Some? then AllBut(f.isNotList.value)
        else Unspecified
      case Some(m) =>
        if m == GetRuleAny() then
          (if f.isList.None? && f.isNotList.None? then Anything else Conflicting)
        else if m == GetFilterIs(Name(d)) then
          (if f.isNotList.None? then OnlyThese(ListOr(f.isList)) else Conflicting)
        else if m == GetFilterIsNot(Name(d)) then
          (if f.isList.None? then AllBut(ListOr(f.isNotList)) else Conflicting)
        else Conflicting
  }

  /**
   The proxy translator: a known flag sets the dimension's own mode and
   exactly the matching list; a null or unknown flag leaves the dimension
   unset, so "any" is never written.
   */
  function ModeAndList(d: Dimension, c: Criterion): (f: FilterReq)
    ensures c.includes.Known? <==> f.mode.Some?
    ensures c.includes.Known? ==> (f.isList.Some? <==> c.includes.value) && (f.isNotList.Some? <==> !c.includes.value)
    ensures !c.includes.Known? ==> f == Unset
    ensures f.mode != Some(GetRuleAny()) && f.mode.Some? ==> IsModeOf(d, f.mode.value)
  {
    match c.includes
    case Known(true) => FilterReq(Some(GetFilterIs(Name(d))), Some(FlattenToStrings(c.values)), None)
    case Known(false) => FilterReq(Some(GetFilterIsNot(Name(d))), None, Some(FlattenToStrings(c.values)))
    case _ => Unset
  }

  /** A known flag sets only the matching list and never the mode. */
  function ListOnly(c: Criterion): (f: FilterReq)
    ensures f.mode.None?
    ensures c.includes.Known? ==> (f.isList.Some? <==> c.includes.value) && (f.isNotList.Some? <==> !c.includes.value)
    ensures !c.includes.Known? ==> f == Unset
  {
    match c.includes
    case Known(true) => FilterReq(None, Some(FlattenToStrings(c.values)), None)
    case Known(false) => FilterReq(None, None, Some(FlattenToStrings(c.values)))
    case _ => Unset
  }

  /** A null flag sets the mode "any"; otherwise as `ListOnly`. */
  function AnyOrList(c: Criterion): (f: FilterReq)
    ensures c.includes.Null? <==> f.mode == Some(GetRuleAny())
    ensures f.mode.Some? ==> f.isList.None? && f.isNotList.None?
    ensures !c.includes.Null? ==> f == ListOnly(c)
  {
    if c.includes.Null? then FilterReq(Some(GetRuleAny()), None, None) else ListOnly(c)
  }

  /** A null flag sets the mode "any"; nothing else is ever set. */
  function AnyOnly(c: Criterion): (f: FilterReq)
    ensures f.isList.None? && f.isNotList.None?
    ensures f.mode.Some? <==> c.includes.Null?
    ensures f.mode.Some? ==> f.mode.value == GetRuleAny()
  {
    if c.includes.Null? then FilterReq(Some(GetRuleAny()), None, None) else Unset
  }

  function EachDimension(tr: (Dimension, Criterion) -> FilterReq, cs: Criteria): Filters {
    Filters(tr(Country, cs.byCountry), tr(Method, cs.byMethod), tr(Ip, cs.byIp))
  }

  /** The proxy translator reads back as asked, except that a null flag reads as unspecified rather than unrestricted. */
  lemma ModeAndListReadsBack(d: Dimension, c: Criterion)
    ensures Interpret(d, ModeAndList(d, c)) == if c.includes.Null? then Unspecified else Intended(c)
  {
    ModeStringsDistinct(Name(d), Name(d));
  }

  /** The any-or-list translator reads back exactly as the plan asks. */
  lemma AnyOrListReadsBack(d: Dimension, c: Criterion)
    ensures Interpret(d, AnyOrList(c)) == Intended(c)
  {
  }

  /** The list-only translator loses the "no restriction" meaning of a null flag. */
  lemma ListOnlyReadsBack(d: Dimension, c: Criterion)
    ensures Interpret(d, ListOnly(c)) == if c.includes.Null? then Unspecified else Intended(c)
  {
  }

  /** The any-only translator keeps "no restriction" and drops every list. */
  lemma AnyOnlyReadsBack(d: Dimension, c: Criterion)
    ensures Interpret(d, AnyOnly(c)) == if c.includes.Null? then Anything else Unspecified
  {
  }

  /** No translator ever produces a conflicting request dimension. */
  lemma TranslatorsNeverConflict(d: Dimension, c: Criterion)
    ensures Interpret(d, ModeAndList(d, c)) != Conflicting
    ensures Interpret(d, ListOnly(c)) != Conflicting
    ensures Interpret(d, AnyOrList(c)) != Conflicting
    ensures Interpret(d, AnyOnly(c)) != Conflicting
  {
    ModeAndListReadsBack(d, c);
  }
}

=== FILE: string_order.dfy ===
/**
 The ascending string order `sort.Strings` uses (lexicographic on
 characters), and a sort of distinct strings into the one strictly
 ascending sequence that holds them.
 */
module StringOrder {
  /** `a` sorts strictly before `b`: at the first difference `a` has the smaller character, or `a` is a proper prefix. */
  predicate Less(a: string, b: string)
    decreases |a|
  {
    if |a| == 0 then |b| > 0
    else if |b| == 0 then false
    else a[0] < b[0] || (a[0] == b[0] && Less(a[1..], b[1..]))
  }

  lemma {:induction false} LessIrreflexive(a: string)
    ensures !Less(a, a)
    decreases |a|
  {
    if |a| > 0 {
      LessIrreflexive(a[1..]);
    }
  }

  lemma {:induction false} LessTransitive(a: string, b: string, c: string)
    requires Less(a, b) && Less(b, c)
    ensures Less(a, c)
    decreases |a|
  {
    if |a| > 0 && a[0] == b[0] && b[0] == c[0] {
      LessTransitive(a[1..], b[1..], c[1..]);
    }
  }

  lemma {:induction false} LessTotal(a: string, b: string)
    ensures a == b || Less(a, b) || Less(b, a)
    decreases |a|
  {
    if |a| > 0 && |b| > 0 && a[0] == b[0] {
      LessTotal(a[1..], b[1..]);
      if a[1..] == b[1..] {
        assert a == [a[0]] + a[1..] && b == [b[0]] + b[1..];
      }
    }
  }

  lemma LessAsymmetric(a: string, b: string)
    requires Less(a, b)
    ensures !Less(b, a)
  {
    if Less(b, a) {
      LessTransitive(a, b, a);
      LessIrreflexive(a);
    }
  }

  predicate StrictlySorted(s: seq<string>) {
    forall i, j :: 0 <= i < j < |s| ==> Less(s[i], s[j])
  }

  predicate Distinct(s: seq<string>) {
    forall i, j :: 0 <= i < j < |s| ==> s[i] != s[j]
  }

  function Elems(s: seq<string>): set<string> {
    set x | x in s
  }

  lemma SortedIsDistinct(s: seq<string>)
    requires StrictlySorted(s)
    ensures Distinct(s)
  {
    forall i, j | 0 <= i < j < |s| ensures s[i] != s[j] {
      LessIrreflexive(s[i]);
    }
  }

  /** Put `x` into its place in a strictly ascending sequence that does not hold it. */
  function Insert(x: string, s: seq<string>): (r: seq<string>)
    requires StrictlySorted(s) && x !in s
    ensures StrictlySorted(r)
    ensures Elems(r) == Elems(s) + {x} && |r| == |s| + 1
  {
    if s == [] then [x]
    else if Less(x, s[0]) then
      forall j | 0 < j < |s| ensures Less(x, s[j]) {
        LessTransitive(x, s[0], s[j]);
      }
      [x] + s
    else
      LessTotal(x, s[0]);
      assert Less(s[0], x);
      var t := Insert(x, s[1..]);
      assert Elems(s) == {s[0]} + Elems(s[1..]);
      forall k | 0 <= k < |t| ensures Less(s[0], t[k]) {
        assert t[k] in Elems(t);
        if t[k] != x {
          var i :| 0 <= i < |s[1..]| && s[1..][i] == t[k];
          assert s[i + 1] == t[k];
        }
      }
      [s[0]] + t
  }

  /** Sort distinct strings into ascending order. */
  function Sort(s: seq<string>): (r: seq<string>)
    requires Distinct(s)
    ensures StrictlySorted(r)
    ensures Elems(r) == Elems(s) && |r| == |s|
  {
    if s == [] then []
    else
      var init := s[..|s| - 1];
      var last := s[|s| - 1];
      assert s == init + [last];
      assert last !in init;
      var r := Sort(init);
      assert last !in Elems(r);
      Insert(last, r)
  }

  /** A strictly ascending sequence is fixed by the strings it holds. */
  lemma {:induction false} SortedUnique(a: seq<string>, b: seq<string>)
    requires StrictlySorted(a) && StrictlySorted(b) && Elems(a) == Elems(b)
    ensures a == b
    decreases |a|
  {
    assert a != [] ==> a[0] in Elems(a);
    assert b != [] ==> b[0] in Elems(b);
    if a != [] && b != [] {
      assert a[0] in Elems(b) && b[0] in Elems(a);
      if a[0] != b[0] {
        var i :| 0 <= i < |a| && a[i] == b[0];
        var j :| 0 <= j < |b| && b[j] == a[0];
        assert i > 0 && j > 0;
        assert Less(a[0], b[0]) && Less(b[0], a[0]);
        LessAsymmetric(a[0], b[0]);
      }
      forall y | y in Elems(a[1..]) ensures y in Elems(b[1..]) {
        var i :| 1 <= i < |a| && a[i] == y;
        assert y in Elems(b);
        if y == b[0] { LessIrreflexive(y); }
      }
      forall y | y in Elems(b[1..]) ensures y in Elems(a[1..]) {
        var j :| 1 <= j < |b| && b[j] == y;
        assert y in Elems(a);
        if y == a[0] { LessIrreflexive(y); }
      }
      SortedUnique(a[1..], b[1..]);
      assert a == [a[0]] + a[1..] && b == [b[0]] + b[1..];
    }
  }

  /** Two listings of the same distinct strings, in whatever order, sort to the same sequence. */
  lemma SortIgnoresOrder(a: seq<string>, b: seq<string>)
    requires Distinct(a) && Distinct(b) && Elems(a) == Elems(b)
    ensures Sort(a) == Sort(b)
  {
    SortedUnique(Sort(a), Sort(b));
  }
}

=== FILE: values.dfy ===
/**
 Attribute values as the plugin framework hands them to the provider: each
 field of a plan or state is null, not yet known, or known. The accessors
 mirror the framework's `ValueString`, `ValueBool`, `ValueInt64` and
 `ValueStringPointer`, which fall back to the type's zero value.
 */
module Values {

  datatype Option<+T> = None | Some(value: T)

  /** A plan or state attribute: null, unknown until apply, or a known value. */
  datatype Tf<+T> = Null | Unknown | Known(value: T) {

    /** The value when known, otherwise the given zero value. */
    function ValueOr(zero: T): T {
      match this
      case Known(v) => v
      case _ => zero
    }
  }

  function ValueString(v: Tf<string>): string { v.ValueOr("") }

  function ValueBool(v: Tf<bool>): bool { v.ValueOr(false) }

  function ValueInt64(v: Tf<int>): int { v.ValueOr(0) }

  /** A nil pointer for a null value; otherwise a pointer to the value, which is "" when unknown. */
  function ValueStringPointer(v: Tf<string>): (p: Option<string>)
    ensures p.None? <==> v.Null?
    ensures v.Known? ==> p == Some(v.value)
    ensures v.Unknown? ==> p == Some("")
  {
    if v.Null? then None else Some(ValueString(v))
  }

  /** Same as ValueStringPointer, for booleans. */
  function ValueBoolPointer(v: Tf<bool>): (p: Option<bool>)
    ensures p.None? <==> v.Null?
    ensures v.Known? ==> p == Some(v.value)
    ensures v.Unknown? ==> p == Some(false)
  {
    if v.Null? then None else Some(ValueBool(v))
  }

  const TwoTo31: int := 0x8000_0000
  const TwoTo32: int := 0x1_0000_0000

  predicate IsInt32(x: int) { -TwoTo31 <= x < TwoTo31 }

  /**
   Go's `int32(x)` conversion of an int64: the low 32 bits of x read in
   two's complement. The result is the unique int32 congruent to x
   modulo 2^32.
   */
  function ToInt32(x: int): (r: int)
    ensures IsInt32(r)
    ensures (x - r) % TwoTo32 == 0
    ensures IsInt32(x) ==> r == x
  {
    var low := x % TwoTo32;
    if low < TwoTo31 then low else low - TwoTo32
  }
}

/** Diagnostics as the framework collects them, plus Go runtime panics. */
module Diagnostics {
  import opened Values

  /**
   `Panic` stands for a Go runtime panic (an index out of range or a nil
   dereference after a failed call): the operation aborts at that point.
   */
  datatype Severity = Error | Warning | Panic

  /** One diagnostic; `attribute` is the attribute path of an attribute diagnostic. */
  datatype Diag = Diag(severity: Severity, attribute: Option<string>, summary: string, detail: string)

  function Err(summary: string, detail: string): Diag { Diag(Error, None, summary, detail) }

  function AttrErr(attribute: string, summary: string, detail: string): Diag { Diag(Error, Some(attribute), summary, detail) }

  function Warn(summary: string, detail: string): Diag { Diag(Warning, None, summary, detail) }

  function AttrWarn(attribute: string, summary: string, detail: string): Diag { Diag(Warning, Some(attribute), summary, detail) }

  function Crash(detail: string): Diag { Diag(Panic, None, "runtime panic", detail) }

  /** The framework's `HasError`: some diagnostic has error severity. */
  predicate HasError(ds: seq<Diag>) {
    exists i :: 0 <= i < |ds| && ds[i].severity == Error
  }

  predicate Panicked(ds: seq<Diag>) {
    exists i :: 0 <= i < |ds| && ds[i].severity == Panic
  }

  /** Only warnings, or nothing at all. */
  predicate Quiet(ds: seq<Diag>) {
    forall i :: 0 <= i < |ds| ==> ds[i].severity == Warning
  }
}
